=== FILE: README.md ===
# Triangula chassis kinematics in Dafny

This project models the kinematics core of the Triangula robot's holonomic chassis
(`src/python/triangula/chassis.py`) over exact reals. It covers:

- **Angles.** Python's float modulo and `smallest_difference`, the signed delta between two values on a circle.
- **Geometry.** Plane vectors, `rotate_point` and `rotate_vector`. Sine, cosine and pi are uninterpreted.
  The only facts assumed about them are `sin² + cos² = 1`, `sin 0 = 0`, `cos 0 = 1` and `pi > 0`.
- **Wheel.** `HoloChassis.OmniWheel`:
  - construction from exactly one of a drive vector or an (angle, radius) pair, with a `Result` for the error paths;
  - the cached coefficients `co_x`, `co_y` and `co_theta`;
  - the wheel-speed projection `speed`.
- **Scaling.** The uniform feasibility scan of `get_wheel_speeds`. It starts from 1 and lowers the factor to
  `max_speed / |speed|` for every limited wheel asked to go faster than its limit. The result is `WheelSpeeds`.
- **LinearSolve.** A 3x3 solve by Cramer's rule. It stands in for the dense solver in `calculate_motion`.
- **Chassis.** `HoloChassis`:
  - the cached coefficient matrix;
  - inverse kinematics (`get_wheel_speeds`), which computes the rigid-body velocity at each wheel, projects it and scales it;
  - the two `get_max_*_speed` probes;
  - forward kinematics (`calculate_motion`).
- **Pose.** The normalising `Pose` constructor, `pose_to_pose_vector`, and the two-branch dead-reckoning update
  `calculate_pose_change`. Each is modelled as written, and corrected versions sit beside those that do not do what
  their documentation says (see "## Findings").

Every function is pure and every entity is an immutable datatype. Wheels and chassis are subset types that carry the
invariants their constructors establish: the cached coefficients of a wheel and the coefficient matrix of a chassis.

## Model

| member | source | states |
|---|---|---|
| `Geometry.RotatePoint` | src/python/triangula/chassis.py:19-37 | rotating a point about a centre keeps its squared distance from that centre |
| `Geometry.RotateVector` | src/python/triangula/chassis.py:40-58 | rotating a vector about the default origin keeps its length |
| `Geometry.RotationPreservesDot` | src/python/triangula/chassis.py:40-58 | rotating two vectors about the default origin keeps their dot product |
| `Geometry.RotationIsAdditive` | src/python/triangula/chassis.py:40-58 | rotation about the default origin distributes over vector addition |
| `Geometry.RotationIsHomogeneous` | src/python/triangula/chassis.py:40-58 | rotation about the default origin commutes with scaling a vector |
| `Geometry.RotationByZero` | src/python/triangula/chassis.py:32-37 | a zero angle leaves every point where it is, whatever the centre |
| `Geometry.RotationFixesCentre` | src/python/triangula/chassis.py:32-37 | the centre of a rotation does not move |
| `Angles.PyMod` | src/python/triangula/chassis.py:83-84 | for a positive modulus the remainder lies in [0, m) |
| `Angles.PyModUnique` | src/python/triangula/chassis.py:83-84 | a value in [0, m) that differs from `a` by whole periods is the remainder |
| `Angles.PyModPeriods` | src/python/triangula/chassis.py:83-84 | the remainder differs from its argument by a whole number of periods |
| `Angles.SmallestDifference` | src/python/triangula/chassis.py:61-90 | the code as written: the delta is at most half the modulus in size on every branch, and on the direct branch adding it to `a` lands on `b` modulo the modulus |
| `Angles.SmallestDifferenceOfEqual` | src/python/triangula/chassis.py:83-86 | the delta from a value to itself is zero |
| `Angles.SmallestDifferenceDocumentedExampleFails` | src/python/triangula/chassis.py:64-65 | on the documented example (1.0, 2.5, 2.6) the code returns 0.9, and 1.0 + 0.9 is not congruent to 2.5 |
| `Angles.ShortestDelta` | src/python/triangula/chassis.py:79-81 | the corrected delta is at most half the modulus in size, and adding it to `a` always lands on `b` modulo the modulus |
| `Angles.ShortestDeltaIsMinimal` | src/python/triangula/chassis.py:80-81 | no delta that takes `a` to `b` modulo the modulus is shorter than the corrected one |
| `Angles.SmallestDifferenceAgreesOnDirectBranch` | src/python/triangula/chassis.py:85-86 | where the code takes its direct branch, it agrees with the corrected delta |
| `Angles.ShortestDeltaDocumentedExample` | src/python/triangula/chassis.py:64-65 | the corrected delta gives the documented -1.1 on the documented example |
| `Wheel.NewOmniWheel` | src/python/triangula/chassis.py:415-430 | the constructor fails exactly when other than one of (angle and radius) or vector is given. A given vector is stored verbatim. An angle and radius give the vector of one circumference along the angle. A zero-length vector fails instead of dividing by zero. Position and limit are kept |
| `Wheel.NewOmniWheelFromVector` | src/python/triangula/chassis.py:417-419 | a wheel built from a non-zero vector succeeds, keeps it, and turns once a second when its contact point moves by it in a second |
| `Wheel.NewOmniWheelDefaultLimit` | src/python/triangula/chassis.py:387 | a wheel built from a drive vector alone, with the other arguments left at their defaults, succeeds and gets the speed limit 0 |
| `Wheel.Speed` | src/python/triangula/chassis.py:426-454 | the projection of the velocity onto the drive vector, divided by the vector's length twice, equals the cached `co_x * vx + co_y * vy` |
| `Wheel.SpeedIsLinear` | src/python/triangula/chassis.py:432-454 | the wheel speed is linear in the contact-point velocity |
| `Wheel.SpeedOfDriveVector` | src/python/triangula/chassis.py:411-413 | moving the contact point by the drive vector in one second is one revolution per second |
| `Wheel.SpeedAlongDriveVector` | src/python/triangula/chassis.py:381-384 | `k` drive vectors per second need `k` revolutions per second |
| `Wheel.SpeedZeroIffPerpendicular` | src/python/triangula/chassis.py:437-454 | the wheel is idle exactly when the velocity is perpendicular to its drive vector |
| `LinearSolve.Solve` | src/python/triangula/chassis.py:297 | for a non-singular matrix the solution satisfies the system |
| `LinearSolve.SolveInvertsApply` | src/python/triangula/chassis.py:297 | solving recovers whatever vector the matrix was applied to, so the solution is unique |
| `Scaling.FeasibleScale` | src/python/triangula/chassis.py:366-370 | the scan's factor is at most 1. It is 1 exactly when no limited wheel exceeds its limit. It brings every exceeding wheel within its limit. Below 1 it holds some exceeding wheel exactly at its limit. It is non-negative under non-negative limits |
| `Scaling.ScaledSpeedsRespectLimits` | src/python/triangula/chassis.py:343-346 | under non-negative limits the scaled speeds respect every limit, and a factor below 1 leaves some wheel exactly at its limit |
| `Scaling.ScaleRequest` | src/python/triangula/chassis.py:365-371 | there is one speed per wheel, each the requested speed times the factor. The factor is at most 1 and is 1 exactly when nothing exceeds. Under non-negative limits the factor is also non-negative, every limit is respected, and some wheel sits at its limit when the request was scaled |
| `Scaling.ZeroLimitStopsAll` | src/python/triangula/chassis.py:366-371 | under non-negative limits, a wheel whose limit is 0 and whose requested speed is not forces the factor and every scaled speed to 0 |
| `Scaling.UniformRequestAchievable` | src/python/triangula/chassis.py:310-312 | under non-negative limits, every request `unit * v` with `0 <= v <=` probe times the probe's factor needs no scaling |
| `Scaling.UniformRequestTight` | src/python/triangula/chassis.py:310-312 | under non-negative limits, once the probe was scaled, every request `unit * v` beyond probe times factor is scaled |
| `Chassis.NewHoloChassis` | src/python/triangula/chassis.py:275-283 | the chassis keeps its wheels, with one matrix row per wheel, and row i applied to `(tx, ty, rotation)` is the speed wheel i needs for that rigid motion about the chassis centre |
| `Chassis.VelocityAt` | src/python/triangula/chassis.py:349-363 | the rigid-body velocity at a point is the translation plus a turning part perpendicular to the radius from the centre of rotation, `rotation` times as long as that radius |
| `Chassis.GetWheelSpeeds` | src/python/triangula/chassis.py:329-371 | there is one speed per wheel, each equal to its unscaled speed times one factor. The factor is at most 1, and is 1 exactly when no limited wheel exceeds its limit. Under non-negative limits the factor is non-negative, the limits hold, and a scaled request leaves some wheel at its limit |
| `Chassis.RequestedSpeedsScale` | src/python/triangula/chassis.py:349-365 | scaling translation and rotation together by `k` scales every unscaled wheel speed by `k` |
| `Chassis.RequestedSpeeds` | src/python/triangula/chassis.py:365 | there is one unscaled speed per wheel, in wheel order. About the default origin they are the cached coefficient matrix applied to `(tx, ty, rotation)` |
| `Chassis.WheelSpeedIsCoefficientRow` | src/python/triangula/chassis.py:429-430 | a rigid motion about the chassis centre drives a wheel at `co_x tx + co_y ty + co_theta rotation` |
| `Chassis.DefaultLimitStopsChassis` | src/python/triangula/chassis.py:387 | under non-negative limits, a wheel left at the default limit of 0 forces the factor to 0, and every speed to 0, as soon as it is asked to turn |
| `Chassis.GetMaxTranslationSpeed` | src/python/triangula/chassis.py:302-312 | the top forward speed is at most the 10000 mm/s probe and, under non-negative limits, not negative |
| `Chassis.GetMaxRotationSpeed` | src/python/triangula/chassis.py:314-324 | the top spin rate is at most the 200 pi rad/s probe and, under non-negative limits, not negative |
| `Chassis.ProbeBoundIsAchievable` | src/python/triangula/chassis.py:302-324 | under non-negative limits, along any fixed direction of translation and rotation, every magnitude up to probe times factor needs no scaling |
| `Chassis.ProbeBoundIsTight` | src/python/triangula/chassis.py:302-324 | under non-negative limits, once the probe was scaled, every larger magnitude along that direction is scaled |
| `Chassis.MaxTranslationSpeedIsAchievable` | src/python/triangula/chassis.py:310-312 | under non-negative limits, any forward speed up to the computed maximum needs no scaling |
| `Chassis.MaxTranslationSpeedIsTight` | src/python/triangula/chassis.py:310-312 | under non-negative limits and below the probe, any faster forward speed is scaled |
| `Chassis.MaxRotationSpeedIsAchievable` | src/python/triangula/chassis.py:322-324 | under non-negative limits, any spin rate up to the computed maximum needs no scaling |
| `Chassis.MaxRotationSpeedIsTight` | src/python/triangula/chassis.py:322-324 | under non-negative limits and below the probe, any faster spin is scaled |
| `Chassis.CalculateMotion` | src/python/triangula/chassis.py:285-300 | the solve fails if the chassis does not have three wheels, if it is not given three speeds, or if the matrix is singular. Otherwise the motion it returns, fed through the coefficient matrix, gives back the speeds |
| `Chassis.CalculatedMotionReproducesSpeeds` | src/python/triangula/chassis.py:297-300 | driving the motion that forward kinematics found asks each wheel for exactly the speed it was given |
| `Chassis.MotionOfWheelSpeeds` | src/python/triangula/chassis.py:297-300 | forward kinematics of the speeds `get_wheel_speeds` returns is the requested motion times the factor |
| `Chassis.MotionOfUnscaledWheelSpeeds` | src/python/triangula/chassis.py:297-300 | for a request no wheel limit cuts, forward kinematics gives back exactly the request |
| `Pose.NewPose` | src/python/triangula/chassis.py:193-204 | the constructor keeps the position and puts the orientation in [0, 2 pi) |
| `Pose.NewPoseTurnsBy` | src/python/triangula/chassis.py:204 | the normalised orientation differs from the given one by whole turns |
| `Pose.NewPoseKeepsNormalised` | src/python/triangula/chassis.py:204 | an orientation already in [0, 2 pi) is kept as given |
| `Pose.NewPoseIgnoresWholeTurns` | src/python/triangula/chassis.py:204 | orientations whole turns apart make the same pose |
| `Pose.PoseToPoseVector` | src/python/triangula/chassis.py:206-221 | the code as written: the vector is as long as the distance between the two positions |
| `Pose.PoseToPoseVectorToSelf` | src/python/triangula/chassis.py:219-221 | the vector to the same position is zero |
| `Pose.PoseToPoseVectorFacingNorth` | src/python/triangula/chassis.py:219-221 | facing north, the vector is the plain world difference |
| `Pose.PoseToPoseVectorMissesTarget` | src/python/triangula/chassis.py:219-221 | when the sine of the orientation is non-zero, driving straight along the vector misses any distinct target |
| `Pose.PoseToTargetVector` | src/python/triangula/chassis.py:207-217 | the corrected vector is as long as the distance between the two positions |
| `Pose.PoseToTargetVectorReachesTarget` | src/python/triangula/chassis.py:207-217 | driving straight along the corrected vector reaches the target, given that sine is odd and cosine even |
| `Pose.CalculatePoseChange` | src/python/triangula/chassis.py:223-259 | the new orientation is always in [0, 2 pi) |
| `Pose.StraightMoveAddsTranslation` | src/python/triangula/chassis.py:256-259 | without rotation a normalised pose keeps its orientation and moves by the translation turned into the world frame |
| `Pose.StraightMoveIgnoresTime` | src/python/triangula/chassis.py:256-259 | without rotation the result does not depend on the interval |
| `Pose.StandingStillKeepsPose` | src/python/triangula/chassis.py:256-259 | standing still leaves a normalised pose exactly where it was |
| `Pose.ArcAdvancesOrientation` | src/python/triangula/chassis.py:244-246 | while turning, the new orientation is `orientation + rotation * time` up to whole turns |
| `Pose.ArcCentre` | src/python/triangula/chassis.py:248-252 | the arc centre vector is perpendicular to the translation turned into the world frame, at the radius `abs(translation) / abs(rotation)` |
| `Pose.ArcKeepsDistanceFromCentre` | src/python/triangula/chassis.py:247-254 | while turning, the new position is as far from the arc centre as the old one |
| `Pose.ArcPositionIgnoresTime` | src/python/triangula/chassis.py:253-254 | while turning, the new position does not depend on the interval; only the orientation does |
| `Pose.ArcFromOrigin` | src/python/triangula/chassis.py:244-254 | the code as written: facing north from the origin, the arc ends at the displacement of a robot turning through `rotation` with the sine of that angle negated, the mirror image of the turn it makes |
| `Pose.ArcGoesBackwards` | src/python/triangula/chassis.py:244-254 | the code as written: driving forwards while turning clockwise at a rate with positive sine ends behind the start, while the same translation without turning ends ahead of it |
| `Pose.CorrectedPoseChange` | src/python/triangula/chassis.py:223-259 | the corrected update always leaves the orientation in [0, 2 pi) |
| `Pose.CorrectedArcDisplacement` | src/python/triangula/chassis.py:228-254 | in any orientation, the corrected arc ends at the start plus the integral of the robot's velocity while its heading turns clockwise at `rotation` for `time` seconds, taken into the world frame by minus the starting orientation |
| `Pose.CorrectedArcGoesForwards` | src/python/triangula/chassis.py:228-254 | driving forwards while turning clockwise through a sweep with positive sine, the corrected update ends ahead of the start |
| `Pose.CorrectedStraightMove` | src/python/triangula/chassis.py:256-259 | without turning, the corrected update keeps a normalised orientation and moves by the world-frame translation times the interval, where `calculate_pose_change` moves by it once |

## Left out

- Floating-point rounding: all arithmetic is over `real`, so results such as 0.9000000000000004 are exact 0.9 here.
- Integer arguments: the module is Python 2 code, where `/` between two `int`s floors. Every argument is treated here as a real, so integer-typed positions, vectors, speeds and moduli are not modelled. Affected are `max_value / 2` (line 85), `max_speed / abs(speed)` (line 369), the arc centre's `/ motion.rotation` (line 251), the coefficients (lines 427-430) and `speed` (line 454). For example, a wheel with the integer vector `(3, 4)` gets `co_x = 3 / 25 = 0` there, but 0.12 here.
- `sin`, `cos` and `pi` are uninterpreted, with only the four facts above. Statements that need more, such as sine being odd, take that fact as a `requires`.
- The euclid vector library is not part of this model. Its `Vector2` and `Point2` are one two-real datatype, and `cross()` is taken to be `(y, -x)`. `RotateVector` therefore equals `RotatePoint`.
- The dense solver in `calculate_motion` is replaced by Cramer's rule on a 3x3 matrix. The solver's exception for a non-square or singular system is a `MotionError` in the `Result`, not a precondition. The model only tells apart "not three wheels", "not three speeds" and "singular". Over- and under-determined chassis with more or fewer wheels are not solved.
- `get_wheel_speeds_from_motion` (lines 326-327) is left out. It reads `motion.x` and `motion.y`, which `Motion` does not have, so as written it always fails.
- `get_regular_triangular_chassis` (lines 93-127) is left out. It only builds three wheels from trigonometric constants.
- `test()` and the `__str__` methods are left out. They only print.
- The `WheelSpeeds` and `Motion` classes (lines 130-183) are plain datatypes. They state nothing of their own.
- `Chassis.GetWheelSpeeds`: it requires that the scan never divides by zero (`ScalingDefined`). That can only fail when a wheel has a negative limit and a zero speed, where `get_wheel_speeds` raises `ZeroDivisionError` at line 369. The properties that need non-negative limits are stated under that assumption.
- `Chassis.GetMaxTranslationSpeed`: it states bounds, not the exact value `10000 * scaling`. Its exactness is stated by `MaxTranslationSpeedIsAchievable` and `MaxTranslationSpeedIsTight`, which together pin the value down whenever it is below the probe. The same holds for `GetMaxRotationSpeed`.
- `Angles.PyMod` requires a non-zero modulus. Python raises `ZeroDivisionError` there, and no caller passes zero.
- `Pose.CalculatePoseChange`: its own contract only states normalisation. What each branch computes is stated by the straight-move and arc lemmas.
- `Pose.CorrectedPoseChange`: its own contract only states normalisation. Its position is stated by `Pose.CorrectedArcDisplacement` and `Pose.CorrectedStraightMove` for every orientation, the arc given that sine is odd and cosine even at the sweep. `Pose.CorrectedArcGoesForwards` is stated facing north from the origin only. That the arc tends to the straight move as the rotation tends to zero is a limit, and is not stated.
- The limit default follows the code: `Wheel.NewOmniWheel` called without a limit gets `Some(0.0)` (line 387), as `Wheel.NewOmniWheelDefaultLimit` states. The doc-comment at lines 398-399 says no limit.

## Findings

| source | as written | input that shows it | evidently intended | confidence | as-written member | corrected member |
|---|---|---|---|---|---|---|
| src/python/triangula/chassis.py:87-90 | the wraparound branches return `max_value - (mod_a + mod_b)` and `mod_b + mod_a - max_value`, adding the remainders | a=1.0, b=2.5, max_value=2.6 returns 0.9, and (1.0 + 0.9) % 2.6 = 1.9, not 2.5 | `max_value - (mod_a - mod_b)` and `(mod_b - mod_a) - max_value`, giving -1.1 as the doc-comment says | high, not executed | `Angles.SmallestDifferenceDocumentedExampleFails` | `Angles.ShortestDelta` |
| src/python/triangula/chassis.py:219-221 | `pose_to_pose_vector` turns the world difference by `-orientation`, the same turn `calculate_pose_change` (line 258) uses to take robot coordinates into world ones | facing east (orientation pi/2), a target one unit east gives (0, -1), straight backwards; driving along it for a second lands one unit west | turn by `+orientation`, the inverse, so that the robot-frame vector leads to the target | medium, not executed | `Pose.PoseToPoseVectorMissesTarget` | `Pose.PoseToTargetVectorReachesTarget` |
| src/python/triangula/chassis.py:244-254 | while turning, line 254 turns the position by `+motion.rotation`, which `rotate_point` takes as anti-clockwise. `rotation` is clockwise-positive (line 165), and the centre from line 250 lies on the clockwise side. The centre is also used as an absolute point, and the sweep ignores `time` | facing north at the origin with translation (0, 1), rotation w > 0 with sin w > 0, and time 1, the arc ends at y = -sin(w)/w < 0, behind the start. With rotation 0 the same translation ends at y = 1 | turn the position by `-(rotation * time)` about `position + centre vector`. Then, facing north, the robot moves by the integral of its world velocity and ends ahead of the start. The straight branch likewise covers `translation * time` | high, not executed | `Pose.ArcGoesBackwards` | `Pose.CorrectedArcGoesForwards` |

=== FILE: angles.dfy ===
/** Python's floating-point modulo and the shortest signed delta between two
    values on a circle of a given circumference. */
module Angles {

  function Abs(x: real): (r: real)
    ensures r >= 0.0 && (r == x || r == -x)
  {
    if x < 0.0 then -x else x
  }

  /** Python's `a % m`: the remainder takes the sign of the divisor. */
  function PyMod(a: real, m: real): (r: real)
    requires m != 0.0
    ensures m > 0.0 ==> 0.0 <= r < m
  {
    var k := (a / m).Floor;
    if m > 0.0 then
      FloorScaled(a, m, k);
      a - m * k as real
    else
      a - m * k as real
  }

  lemma FloorScaled(a: real, m: real, k: int)
    requires m > 0.0 && k == (a / m).Floor
    ensures m * k as real <= a < m * k as real + m
  {
    FloorOfQuotient(a, m, a / m, k);
  }

  /** The quotient is passed in as a plain value: the solver reasons about it
      far more reliably than about a division term. */
  lemma FloorOfQuotient(a: real, m: real, q: real, k: int)
    requires m > 0.0 && m * q == a && k == q.Floor
    ensures m * k as real <= a < m * k as real + m
  {
    var f := q - k as real;
    assert m * f == a - m * k as real;
    FractionScaled(m, f);
  }

  lemma FractionScaled(m: real, f: real)
    requires m > 0.0 && 0.0 <= f < 1.0
    ensures 0.0 <= m * f < m
  {
    assert m - m * f == m * (1.0 - f);
  }

  /** A remainder in [0, m) that differs from `a` by a whole number of periods
      is the one Python's modulo returns. */
  lemma PyModUnique(a: real, m: real, r: real, k: int)
    requires m > 0.0 && 0.0 <= r < m && a == r + k as real * m
    ensures PyMod(a, m) == r
  {
    QuotientFloor(a, m, a / m, r, k);
  }

  lemma QuotientFloor(a: real, m: real, q: real, r: real, k: int)
    requires m > 0.0 && m * q == a
    requires 0.0 <= r < m && a == r + k as real * m
    ensures q.Floor == k
  {
    var f := q - k as real;
    assert m * f == r;
    ProductBounds(m, f);
  }

  lemma ProductBounds(m: real, f: real)
    requires m > 0.0
    ensures f < 0.0 ==> m * f < 0.0
    ensures f >= 1.0 ==> m * f >= m
  {
    assert m * f - m == m * (f - 1.0);
  }

  /** A product with a non-zero factor vanishes only when the other factor does. */
  lemma ZeroProduct(x: real, s: real)
    requires x != 0.0 && x * s == 0.0
    ensures s == 0.0
  {
  }

  /** The remainder itself differs from its argument by a whole number of periods. */
  lemma PyModPeriods(a: real, m: real) returns (k: int)
    requires m != 0.0
    ensures a == PyMod(a, m) + k as real * m
  {
    k := (a / m).Floor;
  }

  /** `smallest_difference` as written. The two wraparound branches add the
      remainders instead of subtracting them. */
  function SmallestDifference(a: real, b: real, maxValue: real): (d: real)
    requires maxValue != 0.0
    ensures maxValue > 0.0 ==> Abs(d) <= maxValue / 2.0
    ensures maxValue > 0.0 && Abs(PyMod(a, maxValue) - PyMod(b, maxValue)) <= maxValue / 2.0
            ==> PyMod(a + d, maxValue) == PyMod(b, maxValue)
  {
    var modA := PyMod(a, maxValue);
    var modB := PyMod(b, maxValue);
    if Abs(modA - modB) <= maxValue / 2.0 then
      DirectDeltaIsCongruent(a, b, maxValue);
      modB - modA
    else if modA >= modB then
      maxValue - (modA + modB)
    else
      modB + modA - maxValue
  }

  lemma DirectDeltaIsCongruent(a: real, b: real, m: real)
    requires m != 0.0
    ensures m > 0.0 ==> PyMod(a + (PyMod(b, m) - PyMod(a, m)), m) == PyMod(b, m)
  {
    if m > 0.0 {
      var k := PyModPeriods(a, m);
      PyModUnique(a + (PyMod(b, m) - PyMod(a, m)), m, PyMod(b, m), k);
    }
  }

  /** The same value on both sides needs no delta. */
  lemma SmallestDifferenceOfEqual(a: real, maxValue: real)
    requires maxValue > 0.0
    ensures SmallestDifference(a, a, maxValue) == 0.0
  {
  }

  /** The documented example (1.0, 2.5, 2.6 should give -1.1): `smallest_difference` returns
      0.9, and 1.0 + 0.9 does not land on 2.5 modulo 2.6. */
  lemma SmallestDifferenceDocumentedExampleFails()
    ensures SmallestDifference(1.0, 2.5, 2.6) == 0.9
    ensures PyMod(1.0 + 0.9, 2.6) != PyMod(2.5, 2.6)
  {
    PyModUnique(1.0, 2.6, 1.0, 0);
    PyModUnique(2.5, 2.6, 2.5, 0);
    PyModUnique(1.9, 2.6, 1.9, 0);
  }

  /** The evidently intended shortest delta: the wraparound branches go the other
      way round the circle from `b - a`. */
  function ShortestDelta(a: real, b: real, maxValue: real): (d: real)
    requires maxValue != 0.0
    ensures maxValue > 0.0 ==> Abs(d) <= maxValue / 2.0
    ensures maxValue > 0.0 ==> PyMod(a + d, maxValue) == PyMod(b, maxValue)
  {
    var modA := PyMod(a, maxValue);
    var modB := PyMod(b, maxValue);
    if Abs(modA - modB) <= maxValue / 2.0 then
      DirectDeltaIsCongruent(a, b, maxValue);
      modB - modA
    else if modA >= modB then
      WrappedDeltaIsCongruent(a, b, maxValue, 1);
      maxValue - (modA - modB)
    else
      WrappedDeltaIsCongruent(a, b, maxValue, -1);
      (modB - modA) - maxValue
  }

  lemma WrappedDeltaIsCongruent(a: real, b: real, m: real, j: int)
    requires m != 0.0
    ensures m > 0.0 ==> PyMod(a + (PyMod(b, m) - PyMod(a, m) + j as real * m), m) == PyMod(b, m)
  {
    if m > 0.0 {
      var k := PyModPeriods(a, m);
      PyModUnique(a + (PyMod(b, m) - PyMod(a, m) + j as real * m), m, PyMod(b, m), k + j);
    }
  }

  /** No delta that reaches `b` from `a` is shorter than the corrected one. */
  lemma {:induction false} ShortestDeltaIsMinimal(a: real, b: real, maxValue: real, other: real)
    requires maxValue > 0.0
    requires PyMod(a + other, maxValue) == PyMod(b, maxValue)
    ensures Abs(ShortestDelta(a, b, maxValue)) <= Abs(other)
  {
    var d := ShortestDelta(a, b, maxValue);
    var k1 := PyModPeriods(a + other, maxValue);
    var k2 := PyModPeriods(a + d, maxValue);
    var n := k1 - k2;
    assert a + other - (a + d) == k1 as real * maxValue - k2 as real * maxValue;
    assert other - d == n as real * maxValue;
    WholePeriodsAtLeastOne(n, maxValue);
  }

  /** A non-zero whole number of periods is at least one period long. */
  lemma WholePeriodsAtLeastOne(n: int, m: real)
    requires m > 0.0
    ensures n == 0 || Abs(n as real * m) >= m
  {
    if n >= 1 {
      assert n as real * m - m == (n as real - 1.0) * m;
    } else if n <= -1 {
      assert -(n as real * m) - m == (-(n as real) - 1.0) * m;
    }
  }

  /** On the direct branch `smallest_difference` and the corrected definition agree. */
  lemma SmallestDifferenceAgreesOnDirectBranch(a: real, b: real, maxValue: real)
    requires maxValue > 0.0
    requires Abs(PyMod(a, maxValue) - PyMod(b, maxValue)) <= maxValue / 2.0
    ensures SmallestDifference(a, b, maxValue) == ShortestDelta(a, b, maxValue)
  {
  }

  /** The corrected definition gives the documented -1.1 on the documented example. */
  lemma ShortestDeltaDocumentedExample()
    ensures ShortestDelta(1.0, 2.5, 2.6) == -1.1
  {
    PyModUnique(1.0, 2.6, 1.0, 0);
    PyModUnique(2.5, 2.6, 2.5, 0);
  }
}

=== FILE: chassis.dfy ===
/** A holonomic chassis: an ordered list of omni-wheels, the forward-kinematics
    coefficient matrix cached from them, inverse kinematics with uniform
    feasibility scaling, the maximum-speed probes, and forward kinematics. */
module Chassis {
  import opened Wrappers
  import opened Geometry
  import opened Angles
  import opened Wheel
  import opened LinearSolve
  import opened Scaling

  datatype ChassisData = ChassisData(wheels: seq<OmniWheel>, matrixCoefficients: seq<Vec3>)

  /** Row of the coefficient matrix contributed by one wheel. */
  function CoefficientRow(w: OmniWheel): Vec3 {
    Vec3(w.coX, w.coY, w.coTheta)
  }

  predicate MatrixCached(c: ChassisData) {
    && |c.matrixCoefficients| == |c.wheels|
    && forall i :: 0 <= i < |c.wheels| ==> c.matrixCoefficients[i] == CoefficientRow(c.wheels[i])
  }

  type HoloChassis = c: ChassisData | MatrixCached(c) witness ChassisData([], [])

  /** The chassis keeps its wheels, one matrix row each, and row `i` applied to
      `(tx, ty, rotation)` is the speed wheel `i` needs for that rigid motion
      about the chassis centre. */
  function NewHoloChassis(wheels: seq<OmniWheel>): (c: HoloChassis)
    ensures c.wheels == wheels
    ensures |c.matrixCoefficients| == |wheels|
    ensures forall i, translation: Vector2, rotation: real :: 0 <= i < |wheels| ==>
              c.matrixCoefficients[i].Dot(Vec3(translation.x, translation.y, rotation))
              == Speed(wheels[i], VelocityAt(translation, rotation, Origin, wheels[i].position))
  {
    RowsDriveWheels(wheels);
    ChassisData(wheels, seq(|wheels|, i requires 0 <= i < |wheels| => CoefficientRow(wheels[i])))
  }

  lemma RowsDriveWheels(wheels: seq<OmniWheel>)
    ensures forall i, translation: Vector2, rotation: real :: 0 <= i < |wheels| ==>
              CoefficientRow(wheels[i]).Dot(Vec3(translation.x, translation.y, rotation))
              == Speed(wheels[i], VelocityAt(translation, rotation, Origin, wheels[i].position))
  {
    forall i, translation: Vector2, rotation: real | 0 <= i < |wheels|
      ensures CoefficientRow(wheels[i]).Dot(Vec3(translation.x, translation.y, rotation))
              == Speed(wheels[i], VelocityAt(translation, rotation, Origin, wheels[i].position))
    {
      WheelSpeedIsCoefficientRow(wheels[i], translation, rotation);
    }
  }

  /** Velocity of the rigid body at `point` when it translates at `translation`
      and turns at `rotation` about `origin`: on top of the translation, a turning
      part perpendicular to the radius and `rotation` times as long. */
  function VelocityAt(translation: Vector2, rotation: real, origin: Point2, point: Point2): (r: Vector2)
    ensures r.Minus(translation).Dot(point.Minus(origin)) == 0.0
    ensures r.Minus(translation).MagnitudeSquared() == rotation * rotation * DistanceSquared(point, origin)
  {
    var radius := point.Minus(origin);
    TurningPart(radius.x, radius.y, rotation);
    radius.Cross().Times(rotation).Plus(translation)
  }

  /** The turning part (dy, -dx) * rotation is perpendicular to (dx, dy) and
      `rotation` times as long. */
  lemma TurningPart(dx: real, dy: real, rotation: real)
    ensures (dy * rotation) * dx + (-dx * rotation) * dy == 0.0
    ensures (dy * rotation) * (dy * rotation) + (-dx * rotation) * (-dx * rotation)
            == rotation * rotation * (dx * dx + dy * dy)
  {
  }

  /** The speed each wheel would need before any scaling, in wheel order: the
      projection of the rigid-body velocity at each wheel's contact point. With
      the default centre of rotation that is the cached coefficient matrix
      applied to (tx, ty, rotation). */
  function RequestedSpeeds(c: HoloChassis, translation: Vector2, rotation: real, origin: Point2): (raw: seq<real>)
    ensures |raw| == |c.wheels|
    ensures origin == Origin ==> raw == MatrixSpeeds(c, translation, rotation)
  {
    var raw := seq(|c.wheels|, i requires 0 <= i < |c.wheels| =>
                     Speed(c.wheels[i], VelocityAt(translation, rotation, origin, c.wheels[i].position)));
    RowsDriveWheels(c.wheels);
    assert origin == Origin ==> raw == MatrixSpeeds(c, translation, rotation);
    raw
  }

  /** The cached coefficient matrix applied to (tx, ty, rotation), row by row. */
  function MatrixSpeeds(c: HoloChassis, translation: Vector2, rotation: real): seq<real> {
    seq(|c.wheels|, i requires 0 <= i < |c.wheels| =>
          c.matrixCoefficients[i].Dot(Vec3(translation.x, translation.y, rotation)))
  }

  function Limits(wheels: seq<OmniWheel>): (limits: seq<Option<real>>)
    ensures |limits| == |wheels|
  {
    seq(|wheels|, i requires 0 <= i < |wheels| => wheels[i].maxSpeed)
  }


  /** Inverse kinematics: the speed each wheel needs for the requested rigid-body
      motion about `origin`, all scaled by one factor so no limited wheel exceeds
      its limit. */
  function GetWheelSpeeds(c: HoloChassis, translation: Vector2, rotation: real, origin: Point2): (r: WheelSpeeds)
    requires ScalingDefined(RequestedSpeeds(c, translation, rotation, origin), Limits(c.wheels))
    ensures var raw := RequestedSpeeds(c, translation, rotation, origin);
            && |r.speeds| == |c.wheels|
            && r.speeds == ScaleAll(raw, r.scaling)
            && r.scaling <= 1.0
            && (r.scaling == 1.0 <==> NoneExceeds(raw, Limits(c.wheels)))
    ensures NonNegativeLimits(Limits(c.wheels)) ==>
            && 0.0 <= r.scaling
            && WithinLimits(r.speeds, Limits(c.wheels))
            && (r.scaling < 1.0 ==> SomeAtLimit(r.speeds, Limits(c.wheels)))
    ensures r.scaling < 1.0 ==> SomeBinding(RequestedSpeeds(c, translation, rotation, origin), Limits(c.wheels), r.scaling)
  {
    ScaleRequest(RequestedSpeeds(c, translation, rotation, origin), Limits(c.wheels))
  }

  /** The requested speeds are linear in the request: scaling the translation and
      the rotation rate together scales every wheel's speed. */
  lemma RequestedSpeedsScale(c: HoloChassis, translation: Vector2, rotation: real, origin: Point2, k: real)
    ensures RequestedSpeeds(c, translation.Times(k), rotation * k, origin)
            == ScaleAll(RequestedSpeeds(c, translation, rotation, origin), k)
  {
    var scaled := RequestedSpeeds(c, translation.Times(k), rotation * k, origin);
    var unit := RequestedSpeeds(c, translation, rotation, origin);
    forall i | 0 <= i < |c.wheels|
      ensures scaled[i] == unit[i] * k
    {
      RequestedSpeedScalesAt(c, translation, rotation, origin, k, i);
    }
    ScaleAllPointwise(scaled, unit, k);
  }

  lemma RequestedSpeedScalesAt(c: HoloChassis, translation: Vector2, rotation: real, origin: Point2, k: real, i: int)
    requires 0 <= i < |c.wheels|
    ensures RequestedSpeeds(c, translation.Times(k), rotation * k, origin)[i]
            == RequestedSpeeds(c, translation, rotation, origin)[i] * k
  {
    var w := c.wheels[i];
    var v := VelocityAt(translation, rotation, origin, w.position);
    assert VelocityAt(translation.Times(k), rotation * k, origin, w.position) == v.Times(k);
    SpeedIsHomogeneous(w, v, k);
  }

  /** A rigid motion about the chassis centre drives a wheel at its coefficient
      row applied to (tx, ty, rotation). */
  lemma WheelSpeedIsCoefficientRow(w: OmniWheel, translation: Vector2, rotation: real)
    ensures Speed(w, VelocityAt(translation, rotation, Origin, w.position))
            == CoefficientRow(w).Dot(Vec3(translation.x, translation.y, rotation))
  {
    var p := w.position;
    var v := VelocityAt(translation, rotation, Origin, p);
    var turningX, turningY := p.y * rotation, -p.x * rotation;
    assert v == Vector2(turningX + translation.x, turningY + translation.y);
    TurningCoefficient(w, rotation, turningX, turningY);
    RowSum(w.coX, w.coY, w.coTheta, translation.x, translation.y, rotation, turningX, turningY, v.x, v.y);
  }

  /** The translational and turning parts of a velocity add up under the
      coefficients. */
  lemma RowSum(coX: real, coY: real, coTheta: real, tx: real, ty: real, rotation: real,
               turningX: real, turningY: real, vx: real, vy: real)
    requires vx == turningX + tx && vy == turningY + ty
    requires coX * turningX + coY * turningY == coTheta * rotation
    ensures coX * vx + coY * vy == coX * tx + coY * ty + coTheta * rotation
  {
  }

  /** The turning part of a contact point's velocity, under the wheel's
      translation coefficients, is the moment coefficient times the rate. */
  lemma TurningCoefficient(w: OmniWheel, rotation: real, turningX: real, turningY: real)
    requires turningX == w.position.y * rotation && turningY == -w.position.x * rotation
    ensures w.coX * turningX + w.coY * turningY == w.coTheta * rotation
  {
    MomentCoefficient(w.vector.x, w.vector.y, w.position.x, w.position.y, w.vectorMagnitudeSquared, rotation);
  }

  lemma MomentCoefficient(vx: real, vy: real, px: real, py: real, m: real, rotation: real)
    requires m != 0.0
    ensures (vx / m) * (py * rotation) + (vy / m) * (-px * rotation)
            == ((vx * py - vy * px) / m) * rotation
  {
    var a, b := vx / m, vy / m;
    assert (vx * py - vy * px) / m == a * py - b * px;
  }

  /** A wheel left at the default limit of zero stops the whole chassis as soon
      as the request asks it to turn at all. */
  lemma DefaultLimitStopsChassis(c: HoloChassis, translation: Vector2, rotation: real, origin: Point2, i: int)
    requires NonNegativeLimits(Limits(c.wheels))
    requires 0 <= i < |c.wheels| && c.wheels[i].maxSpeed == DefaultMaxSpeed
    requires RequestedSpeeds(c, translation, rotation, origin)[i] != 0.0
    ensures GetWheelSpeeds(c, translation, rotation, origin).scaling == 0.0
    ensures forall j :: 0 <= j < |c.wheels| ==> GetWheelSpeeds(c, translation, rotation, origin).speeds[j] == 0.0
  {
    var raw := RequestedSpeeds(c, translation, rotation, origin);
    ZeroLimitStopsAll(raw, Limits(c.wheels), i);
  }

  /** The probe magnitude used to find the top translation speed. */
  const TranslationProbe: real := 10000.0

  /** The fastest straight-ahead translation: the scaling of an unrealistically
      fast forward request, times its magnitude. */
  function GetMaxTranslationSpeed(c: HoloChassis): (v: real)
    requires ScalingDefined(RequestedSpeeds(c, Vector2(0.0, TranslationProbe), 0.0, Origin), Limits(c.wheels))
    ensures v <= TranslationProbe
    ensures NonNegativeLimits(Limits(c.wheels)) ==> 0.0 <= v
  {
    ScaledProbe(TranslationProbe, GetWheelSpeeds(c, Vector2(0.0, TranslationProbe), 0.0, Origin).scaling)
  }

  /** The probe rate used to find the top rotation speed: one hundred turns a second. */
  function RotationProbe(t: Trig): (p: real)
    ensures p > 0.0
  {
    2.0 * t.pi * 100.0
  }

  /** The fastest rotation on the spot, found the same way. */
  function GetMaxRotationSpeed(t: Trig, c: HoloChassis): (v: real)
    requires ScalingDefined(RequestedSpeeds(c, Origin, RotationProbe(t), Origin), Limits(c.wheels))
    ensures v <= RotationProbe(t)
    ensures NonNegativeLimits(Limits(c.wheels)) ==> 0.0 <= v
  {
    ScaledProbe(RotationProbe(t), GetWheelSpeeds(c, Origin, RotationProbe(t), Origin).scaling)
  }

  /** Every request along a fixed direction no larger than the probe magnitude
      times the probe's scaling can be met without scaling. The probe request
      translates at `direction * probe` and turns at `rate * probe`; the checked
      request translates at `direction * v` and turns at `rate * v`. */
  lemma ProbeBoundIsAchievable(c: HoloChassis, direction: Vector2, rate: real,
                               probe: real, probeTranslation: Vector2, probeRotation: real, atProbe: WheelSpeeds,
                               v: real, translation: Vector2, rotation: real)
    requires NonNegativeLimits(Limits(c.wheels))
    requires probeTranslation == direction.Times(probe) && probeRotation == rate * probe
    requires atProbe == GetWheelSpeeds(c, probeTranslation, probeRotation, Origin)
    requires translation == direction.Times(v) && rotation == rate * v
    requires probe > 0.0 && 0.0 <= v <= ScaledProbe(probe, atProbe.scaling)
    ensures GetWheelSpeeds(c, translation, rotation, Origin).scaling == 1.0
  {
    var unit := RequestedSpeeds(c, direction, rate, Origin);
    GetWheelSpeedsAlong(c, direction, rate, probe, probeTranslation, probeRotation);
    GetWheelSpeedsAlong(c, direction, rate, v, translation, rotation);
    UniformRequestAchievable(unit, Limits(c.wheels), probe, atProbe, v);
  }

  /** Once the probe had to be scaled, every request along that direction larger
      than the probe magnitude times its scaling has to be scaled too. */
  lemma ProbeBoundIsTight(c: HoloChassis, direction: Vector2, rate: real,
                          probe: real, probeTranslation: Vector2, probeRotation: real, atProbe: WheelSpeeds,
                          v: real, translation: Vector2, rotation: real)
    requires NonNegativeLimits(Limits(c.wheels))
    requires probeTranslation == direction.Times(probe) && probeRotation == rate * probe
    requires atProbe == GetWheelSpeeds(c, probeTranslation, probeRotation, Origin)
    requires translation == direction.Times(v) && rotation == rate * v
    requires probe > 0.0 && atProbe.scaling < 1.0 && v > ScaledProbe(probe, atProbe.scaling)
    ensures GetWheelSpeeds(c, translation, rotation, Origin).scaling < 1.0
  {
    var unit := RequestedSpeeds(c, direction, rate, Origin);
    GetWheelSpeedsAlong(c, direction, rate, probe, probeTranslation, probeRotation);
    GetWheelSpeedsAlong(c, direction, rate, v, translation, rotation);
    UniformRequestTight(unit, Limits(c.wheels), probe, atProbe, v);
  }

  lemma GetWheelSpeedsAlong(c: HoloChassis, direction: Vector2, rate: real, k: real, translation: Vector2, rotation: real)
    requires NonNegativeLimits(Limits(c.wheels))
    requires translation == direction.Times(k) && rotation == rate * k
    ensures GetWheelSpeeds(c, translation, rotation, Origin)
            == ScaleRequest(ScaleAll(RequestedSpeeds(c, direction, rate, Origin), k), Limits(c.wheels))
  {
    RequestedSpeedsScale(c, direction, rate, Origin, k);
  }

  /** Any forward speed up to the computed maximum needs no scaling. */
  lemma MaxTranslationSpeedIsAchievable(c: HoloChassis, v: real)
    requires NonNegativeLimits(Limits(c.wheels))
    requires 0.0 <= v <= GetMaxTranslationSpeed(c)
    ensures GetWheelSpeeds(c, Vector2(0.0, v), 0.0, Origin).scaling == 1.0
  {
    var p := TranslationProbe;
    var atProbe := GetWheelSpeeds(c, Vector2(0.0, p), 0.0, Origin);
    ForwardAchievable(c, p, atProbe, v);
  }

  lemma ForwardAchievable(c: HoloChassis, p: real, atProbe: WheelSpeeds, v: real)
    requires NonNegativeLimits(Limits(c.wheels))
    requires ScalingDefined(RequestedSpeeds(c, Vector2(0.0, p), 0.0, Origin), Limits(c.wheels))
    requires atProbe == GetWheelSpeeds(c, Vector2(0.0, p), 0.0, Origin)
    requires p > 0.0 && 0.0 <= v <= ScaledProbe(p, atProbe.scaling)
    ensures GetWheelSpeeds(c, Vector2(0.0, v), 0.0, Origin).scaling == 1.0
  {
    ForwardRequest(p);
    ForwardRequest(v);
    ProbeBoundIsAchievable(c, Vector2(0.0, 1.0), 0.0, p, Vector2(0.0, p), 0.0, atProbe, v, Vector2(0.0, v), 0.0);
  }

  /** Below the probe magnitude the computed maximum is exact: anything faster
      forward has to be scaled. */
  lemma MaxTranslationSpeedIsTight(c: HoloChassis, v: real)
    requires NonNegativeLimits(Limits(c.wheels))
    requires GetMaxTranslationSpeed(c) < TranslationProbe && v > GetMaxTranslationSpeed(c)
    ensures GetWheelSpeeds(c, Vector2(0.0, v), 0.0, Origin).scaling < 1.0
  {
    var p := TranslationProbe;
    var atProbe := GetWheelSpeeds(c, Vector2(0.0, p), 0.0, Origin);
    ForwardTight(c, p, atProbe, v);
  }

  lemma ForwardTight(c: HoloChassis, p: real, atProbe: WheelSpeeds, v: real)
    requires NonNegativeLimits(Limits(c.wheels))
    requires ScalingDefined(RequestedSpeeds(c, Vector2(0.0, p), 0.0, Origin), Limits(c.wheels))
    requires atProbe == GetWheelSpeeds(c, Vector2(0.0, p), 0.0, Origin)
    requires p > 0.0 && atProbe.scaling < 1.0 && v > ScaledProbe(p, atProbe.scaling)
    ensures GetWheelSpeeds(c, Vector2(0.0, v), 0.0, Origin).scaling < 1.0
  {
    ForwardRequest(p);
    ForwardRequest(v);
    ProbeBoundIsTight(c, Vector2(0.0, 1.0), 0.0, p, Vector2(0.0, p), 0.0, atProbe, v, Vector2(0.0, v), 0.0);
  }

  lemma ForwardRequest(k: real)
    ensures Vector2(0.0, k) == Vector2(0.0, 1.0).Times(k) && 0.0 == 0.0 * k
  {
  }

  /** Any rotation rate up to the computed maximum needs no scaling. */
  lemma MaxRotationSpeedIsAchievable(t: Trig, c: HoloChassis, v: real)
    requires NonNegativeLimits(Limits(c.wheels))
    requires 0.0 <= v <= GetMaxRotationSpeed(t, c)
    ensures GetWheelSpeeds(c, Origin, v, Origin).scaling == 1.0
  {
    var p := RotationProbe(t);
    var atProbe := GetWheelSpeeds(c, Origin, p, Origin);
    SpinRequest(p);
    SpinRequest(v);
    ProbeBoundIsAchievable(c, Origin, 1.0, p, Origin, p, atProbe, v, Origin, v);
  }

  /** Below the probe rate the computed maximum rotation is exact. */
  lemma MaxRotationSpeedIsTight(t: Trig, c: HoloChassis, v: real)
    requires NonNegativeLimits(Limits(c.wheels))
    requires GetMaxRotationSpeed(t, c) < RotationProbe(t) && v > GetMaxRotationSpeed(t, c)
    ensures GetWheelSpeeds(c, Origin, v, Origin).scaling < 1.0
  {
    var p := RotationProbe(t);
    var atProbe := GetWheelSpeeds(c, Origin, p, Origin);
    SpinRequest(p);
    SpinRequest(v);
    ProbeBoundIsTight(c, Origin, 1.0, p, Origin, p, atProbe, v, Origin, v);
  }

  lemma SpinRequest(k: real)
    ensures Origin == Origin.Times(k) && k == 1.0 * k
  {
  }

  /** The cached coefficient rows of a three-wheeled chassis as a 3x3 matrix. */
  function CoefficientMatrix(c: HoloChassis): Mat3
    requires |c.wheels| == 3
  {
    Mat3(c.matrixCoefficients[0], c.matrixCoefficients[1], c.matrixCoefficients[2])
  }

  /** A motion as the unknown vector (tx, ty, rotation) of the linear system. */
  function MotionVector(m: Motion): Vec3 {
    Vec3(m.translation.x, m.translation.y, m.rotation)
  }

  /** Why the dense solver refuses a system: the coefficient matrix is not 3x3,
      the speed vector does not match it, or the matrix is singular. */
  datatype MotionError = NotSquare | SpeedCountMismatch | Singular

  /** Forward kinematics: the rigid-body motion about the chassis centre whose
      wheel speeds are `speeds`. */
  function CalculateMotion(c: HoloChassis, speeds: seq<real>): (r: Result<Motion, MotionError>)
    ensures r == Failure(NotSquare) <==> |c.wheels| != 3
    ensures r == Failure(SpeedCountMismatch) <==> |c.wheels| == 3 && |speeds| != 3
    ensures r.Success? <==> |c.wheels| == 3 && |speeds| == 3 && Det(CoefficientMatrix(c)) != 0.0
    ensures r.Success? ==> CoefficientMatrix(c).Apply(MotionVector(r.value)) == Vec3(speeds[0], speeds[1], speeds[2])
  {
    if |c.wheels| != 3 then Failure(NotSquare)
    else if |speeds| != 3 then Failure(SpeedCountMismatch)
    else if Det(CoefficientMatrix(c)) == 0.0 then Failure(Singular)
    else
      var x := Solve(CoefficientMatrix(c), Vec3(speeds[0], speeds[1], speeds[2]));
      Success(Motion(Vector2(x.a, x.b), x.c))
  }

  /** Inverse after forward: driving the motion that forward kinematics found
      asks each wheel for exactly the speed it was given. */
  lemma CalculatedMotionReproducesSpeeds(c: HoloChassis, speeds: seq<real>)
    requires CalculateMotion(c, speeds).Success?
    ensures var m := CalculateMotion(c, speeds).value;
            RequestedSpeeds(c, m.translation, m.rotation, Origin) == speeds
  {
    var m := CalculateMotion(c, speeds).value;
    var raw := RequestedSpeeds(c, m.translation, m.rotation, Origin);
    MatrixSpeedsOfThree(c, m);
    assert raw == [speeds[0], speeds[1], speeds[2]];
  }

  /** For three wheels, the matrix speeds are the coefficient matrix applied to
      the motion vector. */
  lemma MatrixSpeedsOfThree(c: HoloChassis, m: Motion)
    requires |c.wheels| == 3
    ensures var applied := CoefficientMatrix(c).Apply(MotionVector(m));
            MatrixSpeeds(c, m.translation, m.rotation) == [applied.a, applied.b, applied.c]
  {
  }

  /** Forward after inverse: the wheel speeds the chassis commands for a request
      about its centre drive exactly that request, slowed by the scaling factor. */
  lemma MotionOfWheelSpeeds(c: HoloChassis, translation: Vector2, rotation: real, r: WheelSpeeds)
    requires |c.wheels| == 3 && Det(CoefficientMatrix(c)) != 0.0
    requires ScalingDefined(RequestedSpeeds(c, translation, rotation, Origin), Limits(c.wheels))
    requires r == GetWheelSpeeds(c, translation, rotation, Origin)
    ensures CalculateMotion(c, r.speeds) == Success(Motion(translation.Times(r.scaling), rotation * r.scaling))
  {
    var m := Motion(translation.Times(r.scaling), rotation * r.scaling);
    RequestedSpeedsScale(c, translation, rotation, Origin, r.scaling);
    var speeds := RequestedSpeeds(c, m.translation, m.rotation, Origin);
    assert r.speeds == ScaleAll(RequestedSpeeds(c, translation, rotation, Origin), r.scaling);
    assert r.speeds == speeds;
    var matrix := CoefficientMatrix(c);
    MatrixSpeedsOfThree(c, m);
    assert matrix.Apply(MotionVector(m)) == Vec3(speeds[0], speeds[1], speeds[2]);
    SolveInvertsApply(matrix, MotionVector(m));
  }

  /** When no wheel had to be slowed, forward kinematics recovers the request. */
  lemma MotionOfUnscaledWheelSpeeds(c: HoloChassis, translation: Vector2, rotation: real)
    requires |c.wheels| == 3 && Det(CoefficientMatrix(c)) != 0.0
    requires ScalingDefined(RequestedSpeeds(c, translation, rotation, Origin), Limits(c.wheels))
    requires NoneExceeds(RequestedSpeeds(c, translation, rotation, Origin), Limits(c.wheels))
    ensures CalculateMotion(c, GetWheelSpeeds(c, translation, rotation, Origin).speeds)
            == Success(Motion(translation, rotation))
  {
    var r := GetWheelSpeeds(c, translation, rotation, Origin);
    MotionOfWheelSpeeds(c, translation, rotation, r);
    assert translation.Times(1.0) == translation && rotation * 1.0 == rotation;
  }
}

=== FILE: geometry.dfy ===
/** Plane vectors, the trigonometric primitives the chassis code relies on, and
    rotation of a point about a centre. */
module Geometry {

  /** A two-dimensional vector. Points are the same pair read as a position. */
  datatype Vector2 = Vector2(x: real, y: real) {

    function Plus(v: Vector2): Vector2 {
      Vector2(x + v.x, y + v.y)
    }

    function Minus(v: Vector2): Vector2 {
      Vector2(x - v.x, y - v.y)
    }

    function Times(k: real): Vector2 {
      Vector2(x * k, y * k)
    }

    function Dot(v: Vector2): real {
      x * v.x + y * v.y
    }

    function MagnitudeSquared(): real {
      x * x + y * y
    }

    /** The perpendicular, rotated a quarter turn clockwise: (y, -x). */
    function Cross(): Vector2 {
      Vector2(y, -x)
    }
  }

  type Point2 = Vector2

  const Origin: Point2 := Vector2(0.0, 0.0)

  function DistanceSquared(p: Point2, q: Point2): real {
    p.Minus(q).MagnitudeSquared()
  }

  /** A velocity in the robot's own frame: translation in mm/s and rotation in
      rad/s, positive clockwise. */
  datatype Motion = Motion(translation: Vector2, rotation: real)

  /** The trigonometric primitives, left uninterpreted. */
  datatype TrigFunctions = TrigFunctions(sin: real -> real, cos: real -> real, pi: real)

  /** The only facts about sine, cosine and pi the model relies on. */
  ghost predicate TrigAxioms(t: TrigFunctions) {
    && (forall a :: t.sin(a) * t.sin(a) + t.cos(a) * t.cos(a) == 1.0)
    && t.sin(0.0) == 0.0
    && t.cos(0.0) == 1.0
    && t.pi > 0.0
  }

  type Trig = t: TrigFunctions | TrigAxioms(t)
    witness TrigFunctions(_ => 0.0, _ => 1.0, 1.0)

  /** Anti-clockwise rotation of `point` by `angle` radians about `origin`; the
      point stays at its distance from the centre. */
  function RotatePoint(t: Trig, point: Point2, angle: real, origin: Point2): (r: Point2)
    ensures DistanceSquared(r, origin) == DistanceSquared(point, origin)
  {
    var s := t.sin(angle);
    var c := t.cos(angle);
    RotationKeepsLength(s, c, point.x - origin.x, point.y - origin.y);
    Vector2(c * (point.x - origin.x) - s * (point.y - origin.y) + origin.x,
            s * (point.x - origin.x) + c * (point.y - origin.y) + origin.y)
  }

  /** A rotation matrix keeps the squared length of the vector it turns. */
  lemma RotationKeepsLength(s: real, c: real, dx: real, dy: real)
    requires s * s + c * c == 1.0
    ensures (c * dx - s * dy) * (c * dx - s * dy) + (s * dx + c * dy) * (s * dx + c * dy) == dx * dx + dy * dy
  {
    calc {
      (c * dx - s * dy) * (c * dx - s * dy) + (s * dx + c * dy) * (s * dx + c * dy);
      (s * s + c * c) * (dx * dx + dy * dy);
    }
  }

  /** `rotate_vector` uses the same formula as `rotate_point`, origin included;
      only the euclid result class differs, which this model does not distinguish.
      About the default origin the vector keeps its length. */
  function RotateVector(t: Trig, vector: Vector2, angle: real, origin: Point2): (r: Vector2)
    ensures origin == Origin ==> r.MagnitudeSquared() == vector.MagnitudeSquared()
  {
    RotatePoint(t, vector, angle, origin)
  }

  /** Rotation about the origin keeps dot products, hence lengths and angles. */
  lemma RotationPreservesDot(t: Trig, u: Vector2, v: Vector2, angle: real)
    ensures RotateVector(t, u, angle, Origin).Dot(RotateVector(t, v, angle, Origin)) == u.Dot(v)
  {
    RotationAboutOrigin(t, u, angle);
    RotationAboutOrigin(t, v, angle);
    RotationKeepsDot(t.sin(angle), t.cos(angle), u.x, u.y, v.x, v.y);
  }

  /** A rotation matrix keeps the dot product of the two vectors it turns. */
  lemma RotationKeepsDot(s: real, c: real, ux: real, uy: real, vx: real, vy: real)
    requires s * s + c * c == 1.0
    ensures (c * ux - s * uy) * (c * vx - s * vy) + (s * ux + c * uy) * (s * vx + c * vy) == ux * vx + uy * vy
  {
    calc {
      (c * ux - s * uy) * (c * vx - s * vy) + (s * ux + c * uy) * (s * vx + c * vy);
      (s * s + c * c) * (ux * vx + uy * vy);
    }
  }

  /** Rotation about the origin distributes over vector addition. */
  lemma RotationIsAdditive(t: Trig, u: Vector2, v: Vector2, angle: real)
    ensures RotateVector(t, u.Plus(v), angle, Origin)
         == RotateVector(t, u, angle, Origin).Plus(RotateVector(t, v, angle, Origin))
  {
    var s, c := t.sin(angle), t.cos(angle);
    assert c * (u.x + v.x) == c * u.x + c * v.x && s * (u.y + v.y) == s * u.y + s * v.y;
    assert s * (u.x + v.x) == s * u.x + s * v.x && c * (u.y + v.y) == c * u.y + c * v.y;
  }

  /** Rotation about the origin commutes with scaling. */
  lemma RotationIsHomogeneous(t: Trig, u: Vector2, k: real, angle: real)
    ensures RotateVector(t, u.Times(k), angle, Origin) == RotateVector(t, u, angle, Origin).Times(k)
  {
    var s, c := t.sin(angle), t.cos(angle);
    ScaledForm(c, s, u.x, u.y, k);
    ScaledForm(s, -c, u.x, u.y, k);
    assert s * (u.x * k) + c * (u.y * k) == s * (u.x * k) - (-c) * (u.y * k);
  }

  /** A linear form of a scaled vector is the scaled form. */
  lemma ScaledForm(p: real, q: real, x: real, y: real, k: real)
    ensures p * (x * k) - q * (y * k) == (p * x - q * y) * k
  {
  }

  /** The plane rotation matrix with cosine `c` and sine `s` applied to `v`. */
  function Turn(c: real, s: real, v: Vector2): Vector2 {
    Vector2(c * v.x - s * v.y, s * v.x + c * v.y)
  }

  /** About the origin, the rotation is the plain rotation matrix. */
  lemma RotationAboutOrigin(t: Trig, v: Vector2, angle: real)
    ensures RotateVector(t, v, angle, Origin) == Turn(t.cos(angle), t.sin(angle), v)
  {
  }

  /** A zero angle leaves every point where it is. */
  lemma RotationByZero(t: Trig, point: Point2, origin: Point2)
    ensures RotatePoint(t, point, 0.0, origin) == point
  {
  }

  /** The centre of a rotation does not move. */
  lemma RotationFixesCentre(t: Trig, angle: real, origin: Point2)
    ensures RotatePoint(t, origin, angle, origin) == origin
  {
  }

  /** Turning `p` about the centre `p + q` moves it by `q` minus `q` turned about
      the origin. */
  lemma RotationAboutOffsetCentre(t: Trig, p: Point2, q: Vector2, angle: real)
    ensures RotatePoint(t, p, angle, p.Plus(q)) == p.Plus(q.Minus(RotateVector(t, q, angle, Origin)))
  {
    RotationAboutOrigin(t, q, angle);
    assert p.x - p.Plus(q).x == -q.x && p.y - p.Plus(q).y == -q.y;
  }
}

=== FILE: linear_solve.dfy ===
/** A fixed-size 3x3 linear solve by Cramer's rule, standing in for the general
    dense solver the chassis uses for forward kinematics. */
module LinearSolve {

  datatype Vec3 = Vec3(a: real, b: real, c: real) {
    function Dot(v: Vec3): real {
      a * v.a + b * v.b + c * v.c
    }
  }

  /** A matrix given by its three rows. */
  datatype Mat3 = Mat3(r0: Vec3, r1: Vec3, r2: Vec3) {

    function Apply(x: Vec3): Vec3 {
      Vec3(r0.Dot(x), r1.Dot(x), r2.Dot(x))
    }

    /** The matrix with its column `j` replaced by `v`. */
    function WithColumn(j: nat, v: Vec3): Mat3
      requires j < 3
    {
      if j == 0 then
        Mat3(Vec3(v.a, r0.b, r0.c), Vec3(v.b, r1.b, r1.c), Vec3(v.c, r2.b, r2.c))
      else if j == 1 then
        Mat3(Vec3(r0.a, v.a, r0.c), Vec3(r1.a, v.b, r1.c), Vec3(r2.a, v.c, r2.c))
      else
        Mat3(Vec3(r0.a, r0.b, v.a), Vec3(r1.a, r1.b, v.b), Vec3(r2.a, r2.b, v.c))
    }
  }

  function Det(m: Mat3): real {
    m.r0.a * (m.r1.b * m.r2.c - m.r1.c * m.r2.b)
    - m.r0.b * (m.r1.a * m.r2.c - m.r1.c * m.r2.a)
    + m.r0.c * (m.r1.a * m.r2.b - m.r1.b * m.r2.a)
  }

  /** The solution of `m x = rhs` for a non-singular `m`. */
  function Solve(m: Mat3, rhs: Vec3): (x: Vec3)
    requires Det(m) != 0.0
    ensures m.Apply(x) == rhs
  {
    var d := Det(m);
    var x := Vec3(Det(m.WithColumn(0, rhs)) / d, Det(m.WithColumn(1, rhs)) / d, Det(m.WithColumn(2, rhs)) / d);
    CramerSolves(m, rhs, d, x);
    x
  }

  lemma CramerSolves(m: Mat3, rhs: Vec3, d: real, x: Vec3)
    requires d == Det(m) && d != 0.0
    requires x.a * d == Det(m.WithColumn(0, rhs))
    requires x.b * d == Det(m.WithColumn(1, rhs))
    requires x.c * d == Det(m.WithColumn(2, rhs))
    ensures m.Apply(x) == rhs
  {
    var d0, d1, d2 := Det(m.WithColumn(0, rhs)), Det(m.WithColumn(1, rhs)), Det(m.WithColumn(2, rhs));
    LaplaceRow(m, rhs, 0, m.r0, rhs.a, d, d0, d1, d2);
    LaplaceRow(m, rhs, 1, m.r1, rhs.b, d, d0, d1, d2);
    LaplaceRow(m, rhs, 2, m.r2, rhs.c, d, d0, d1, d2);
    CramerRow(m.r0, x, d, d0, d1, d2, rhs.a);
    CramerRow(m.r1, x, d, d0, d1, d2, rhs.b);
    CramerRow(m.r2, x, d, d0, d1, d2, rhs.c);
  }

  /** A row whose products with the Cramer numerators sum to `target` times the
      determinant has dot product `target` with the quotients. */
  lemma CramerRow(r: Vec3, x: Vec3, d: real, d0: real, d1: real, d2: real, target: real)
    requires d != 0.0
    requires x.a * d == d0 && x.b * d == d1 && x.c * d == d2
    requires r.a * d0 + r.b * d1 + r.c * d2 == target * d
    ensures r.Dot(x) == target
  {
    assert r.Dot(x) * d == r.a * (x.a * d) + r.b * (x.b * d) + r.c * (x.c * d);
    CancelFactor(r.Dot(x), target, d);
  }

  function Row(m: Mat3, i: nat): Vec3
    requires i < 3
  {
    if i == 0 then m.r0 else if i == 1 then m.r1 else m.r2
  }

  function Component(v: Vec3, i: nat): real
    requires i < 3
  {
    if i == 0 then v.a else if i == 1 then v.b else v.c
  }

  /** Laplace expansion along row `i`: the row dotted with the Cramer numerators
      is the row's right-hand side times the determinant. */
  lemma LaplaceRow(m: Mat3, rhs: Vec3, i: nat, r: Vec3, target: real, d: real, d0: real, d1: real, d2: real)
    requires i < 3 && r == Row(m, i) && target == Component(rhs, i) && d == Det(m)
    requires d0 == Det(m.WithColumn(0, rhs)) && d1 == Det(m.WithColumn(1, rhs)) && d2 == Det(m.WithColumn(2, rhs))
    ensures r.a * d0 + r.b * d1 + r.c * d2 == target * d
  {
  }

  lemma CancelFactor(u: real, v: real, d: real)
    requires d != 0.0 && u * d == v * d
    ensures u == v
  {
    assert (u - v) * d == 0.0;
  }

  /** A non-singular matrix maps only one vector to a given right-hand side, so
      solving recovers whatever the matrix was applied to. */
  lemma SolveInvertsApply(m: Mat3, x: Vec3)
    requires Det(m) != 0.0
    ensures Solve(m, m.Apply(x)) == x
  {
    var rhs := m.Apply(x);
    var d := Det(m);
    ColumnOfImage(m, x, 0);
    ColumnOfImage(m, x, 1);
    ColumnOfImage(m, x, 2);
    var y := Solve(m, rhs);
    CancelFactor(y.a, x.a, d);
    CancelFactor(y.b, x.b, d);
    CancelFactor(y.c, x.c, d);
  }

  /** Multilinearity of the determinant in the replaced column: putting the
      image of `x` in column `j` scales the determinant by `x`'s component `j`. */
  lemma ColumnOfImage(m: Mat3, x: Vec3, j: nat)
    requires j < 3
    ensures Det(m.WithColumn(j, m.Apply(x))) == Component(x, j) * Det(m)
  {
    var rhs := m.Apply(x);
    if j == 0 {
      assert Det(m.WithColumn(0, rhs)) == x.a * Det(m);
    } else if j == 1 {
      assert Det(m.WithColumn(1, rhs)) == x.b * Det(m);
    } else {
      assert Det(m.WithColumn(2, rhs)) == x.c * Det(m);
    }
  }
}

=== FILE: pose.dfy ===
/** The robot's pose in world coordinates: a position and an orientation in
    radians, clockwise from the positive y axis, always normalised into
    [0, 2 pi). Includes the world-to-robot vector between two poses and the
    dead-reckoning update for a constant motion over a time interval. */
module Pose {
  import opened Geometry
  import opened Angles

  datatype Pose = Pose(position: Point2, orientation: real)

  function FullTurn(t: Trig): (turn: real)
    ensures turn > 0.0
  {
    2.0 * t.pi
  }

  /** `n` whole turns, as an angle. */
  function Turns(t: Trig, n: int): real {
    n as real * FullTurn(t)
  }

  /** The orientation, before normalisation, after turning at the motion's
      rate for `time` seconds. */
  function Heading(pose: Pose, motion: Motion, time: real): real {
    pose.orientation + motion.rotation * time
  }

  /** The angle turned through at the motion's rate in `time` seconds. */
  function Sweep(motion: Motion, time: real): real {
    motion.rotation * time
  }

  /** An orientation already in [0, 2 pi). */
  predicate Normalised(t: Trig, orientation: real) {
    0.0 <= orientation < FullTurn(t)
  }

  /** The constructor: the orientation is reduced modulo a full turn. */
  function NewPose(t: Trig, position: Point2, orientation: real): (p: Pose)
    ensures p.position == position
    ensures Normalised(t, p.orientation)
  {
    Pose(position, PyMod(orientation, FullTurn(t)))
  }

  /** The reduction changes the orientation by a whole number of turns. */
  lemma NewPoseTurnsBy(t: Trig, position: Point2, orientation: real) returns (k: int)
    ensures orientation == NewPose(t, position, orientation).orientation + Turns(t, k)
  {
    k := PyModPeriods(orientation, FullTurn(t));
  }

  /** An orientation already in range is kept as given. */
  lemma NewPoseKeepsNormalised(t: Trig, position: Point2, orientation: real)
    requires Normalised(t, orientation)
    ensures NewPose(t, position, orientation) == Pose(position, orientation)
  {
    PyModUnique(orientation, FullTurn(t), orientation, 0);
  }

  /** Orientations a whole number of turns apart make the same pose. */
  lemma NewPoseIgnoresWholeTurns(t: Trig, position: Point2, orientation: real, turns: int)
    ensures NewPose(t, position, orientation + Turns(t, turns)) == NewPose(t, position, orientation)
  {
    var m := FullTurn(t);
    var j := PyModPeriods(orientation, m);
    var r := PyMod(orientation, m);
    var shifted := orientation + Turns(t, turns);
    assert Turns(t, turns) == turns as real * m;
    assert (j + turns) as real * m == j as real * m + turns as real * m;
    assert shifted == r + (j + turns) as real * m;
    PyModUnique(shifted, m, r, j + turns);
    assert NewPose(t, position, shifted) == Pose(position, r);
  }

  /** The translation, in the robot's frame at `from`, that leads from `from`'s
      position to `to`'s: the world difference rotated by minus the orientation. */
  function PoseToPoseVector(t: Trig, from: Pose, to: Pose): (v: Vector2)
    ensures v.MagnitudeSquared() == DistanceSquared(to.position, from.position)
  {
    var difference := Vector2(to.position.x - from.position.x, to.position.y - from.position.y);
    assert DistanceSquared(difference, Origin) == DistanceSquared(to.position, from.position);
    RotateVector(t, difference, -from.orientation, Origin)
  }

  /** A pose needs no translation to reach its own position. */
  lemma PoseToPoseVectorToSelf(t: Trig, from: Pose, to: Pose)
    requires to.position == from.position
    ensures PoseToPoseVector(t, from, to) == Origin
  {
  }

  /** Facing north, the vector to a target is the plain world difference. */
  lemma PoseToPoseVectorFacingNorth(t: Trig, from: Pose, to: Pose)
    requires from.orientation == 0.0
    ensures PoseToPoseVector(t, from, to) == to.position.Minus(from.position)
  {
    assert -from.orientation == 0.0;
  }

  /** Driving straight along the vector `PoseToPoseVector` returns, for one
      second, misses a distinct target whenever the sine of the orientation is
      non-zero: `pose_to_pose_vector` turns the world difference the same way the straight
      move turns robot coordinates into world ones, so the two turns add up
      instead of cancelling. */
  lemma PoseToPoseVectorMissesTarget(t: Trig, from: Pose, to: Pose)
    requires t.sin(-from.orientation) != 0.0
    requires to.position != from.position
    ensures CalculatePoseChange(t, from, Motion(PoseToPoseVector(t, from, to), 0.0), 1.0).position != to.position
  {
    var s, c := t.sin(-from.orientation), t.cos(-from.orientation);
    var d := to.position.Minus(from.position);
    var v := PoseToPoseVector(t, from, to);
    RotationAboutOrigin(t, d, -from.orientation);
    RotationAboutOrigin(t, v, -from.orientation);
    var w := RotateVector(t, v, -from.orientation, Origin);
    assert s * s + c * c == 1.0;
    if w == d {
      TwiceTurnedFixesOnlyZero(c, s, d.x, d.y, v.x, v.y);
    }
  }

  /** Turning a vector twice by an angle whose sine is non-zero brings back only
      the zero vector. */
  lemma TwiceTurnedFixesOnlyZero(c: real, s: real, dx: real, dy: real, vx: real, vy: real)
    requires s != 0.0 && s * s + c * c == 1.0
    requires vx == c * dx - s * dy && vy == s * dx + c * dy
    requires c * vx - s * vy == dx && s * vx + c * vy == dy
    ensures dx == 0.0 && dy == 0.0
  {
    // Twice turned: ((c^2 - s^2) dx - 2cs dy, 2cs dx + (c^2 - s^2) dy) equals d,
    // so s (s dx + c dy) == 0 and s (c dx - s dy) == 0.
    assert c * vx - s * vy == (c * c - s * s) * dx - 2.0 * c * s * dy;
    assert s * vx + c * vy == 2.0 * c * s * dx + (c * c - s * s) * dy;
    assert s * (s * dx + c * dy) == 0.0;
    assert s * (c * dx - s * dy) == 0.0;
    ZeroProduct(s, s * dx + c * dy);
    ZeroProduct(s, c * dx - s * dy);
    assert dx == s * (s * dx + c * dy) + c * (c * dx - s * dy);
    assert dy == c * (s * dx + c * dy) - s * (c * dx - s * dy);
  }

  /** The evidently intended robot-frame vector to the target: the world
      difference turned by plus the orientation, the inverse of the turn that
      takes robot coordinates into world ones. */
  function PoseToTargetVector(t: Trig, from: Pose, to: Pose): (v: Vector2)
    ensures v.MagnitudeSquared() == DistanceSquared(to.position, from.position)
  {
    var difference := to.position.Minus(from.position);
    assert DistanceSquared(difference, Origin) == DistanceSquared(to.position, from.position);
    RotateVector(t, difference, from.orientation, Origin)
  }

  /** Driving straight along the corrected vector, for any interval, reaches the
      target, given that sine is odd and cosine even at the orientation. */
  lemma PoseToTargetVectorReachesTarget(t: Trig, from: Pose, to: Pose, time: real)
    requires t.sin(-from.orientation) == -t.sin(from.orientation)
    requires t.cos(-from.orientation) == t.cos(from.orientation)
    ensures CalculatePoseChange(t, from, Motion(PoseToTargetVector(t, from, to), 0.0), time).position == to.position
  {
    var s, c := t.sin(from.orientation), t.cos(from.orientation);
    var d := to.position.Minus(from.position);
    var v := PoseToTargetVector(t, from, to);
    RotationAboutOrigin(t, d, from.orientation);
    RotationAboutOrigin(t, v, -from.orientation);
    assert s * s + c * c == 1.0;
    TurnedBackIsIdentity(c, s, d.x, d.y, v.x, v.y);
    assert RotateVector(t, v, -from.orientation, Origin) == d;
  }

  /** Turning by an angle and then by its negative is the identity. */
  lemma TurnedBackIsIdentity(c: real, s: real, dx: real, dy: real, vx: real, vy: real)
    requires s * s + c * c == 1.0
    requires vx == c * dx - s * dy && vy == s * dx + c * dy
    ensures c * vx - -s * vy == dx && -s * vx + c * vy == dy
  {
    assert c * vx + s * vy == (c * c + s * s) * dx;
    assert -s * vx + c * vy == (s * s + c * c) * dy;
  }

  /** The centre of the arc a turning motion describes, from the robot-frame
      translation rotated by minus the orientation, taken a quarter turn
      clockwise and divided by the rotation rate: perpendicular to that
      world-frame translation, at the radius |translation| / |rotation|.
      `calculate_pose_change` uses it as an absolute point. */
  function ArcCentre(t: Trig, pose: Pose, motion: Motion): (r: Point2)
    requires motion.rotation != 0.0
    ensures r.Dot(RotateVector(t, motion.translation, -pose.orientation, Origin)) == 0.0
    ensures r.MagnitudeSquared() * (motion.rotation * motion.rotation) == motion.translation.MagnitudeSquared()
  {
    var world := RotateVector(t, motion.translation, -pose.orientation, Origin);
    var perpendicular := world.Cross();
    CentreOffset(world.x, world.y, motion.rotation);
    Vector2(perpendicular.x / motion.rotation, perpendicular.y / motion.rotation)
  }

  /** (uy, -ux) / w is perpendicular to (ux, uy) and 1 / |w| times as long. */
  lemma CentreOffset(ux: real, uy: real, w: real)
    requires w != 0.0
    ensures (uy / w) * ux + (-ux / w) * uy == 0.0
    ensures ((uy / w) * (uy / w) + (-ux / w) * (-ux / w)) * (w * w) == ux * ux + uy * uy
  {
    assert (uy / w) * (uy / w) * (w * w) == uy * uy;
    assert (-ux / w) * (-ux / w) * (w * w) == ux * ux;
  }

  /** The pose after `time` seconds of constant `motion`, as `calculate_pose_change`
      computes it. While turning, the position is rotated about `ArcCentre` by
      `motion.rotation` whatever the time; without turning, the world-frame
      translation is added once whatever the time. */
  function CalculatePoseChange(t: Trig, pose: Pose, motion: Motion, time: real): (r: Pose)
    ensures Normalised(t, r.orientation)
  {
    if motion.rotation != 0.0 then
      var finalOrientation := Heading(pose, motion, time);
      var centre := ArcCentre(t, pose, motion);
      var finalPosition := RotatePoint(t, pose.position, motion.rotation, centre);
      NewPose(t, finalPosition, finalOrientation)
    else
      NewPose(t, pose.position.Plus(RotateVector(t, motion.translation, -pose.orientation, Origin)), pose.orientation)
  }

  /** Without rotation a normalised pose keeps its orientation and moves by the
      translation taken into the world frame, however long the interval. */
  lemma StraightMoveAddsTranslation(t: Trig, pose: Pose, motion: Motion, time: real)
    requires motion.rotation == 0.0 && Normalised(t, pose.orientation)
    ensures CalculatePoseChange(t, pose, motion, time)
            == Pose(pose.position.Plus(RotateVector(t, motion.translation, -pose.orientation, Origin)), pose.orientation)
  {
    NewPoseKeepsNormalised(t, pose.position.Plus(RotateVector(t, motion.translation, -pose.orientation, Origin)),
                           pose.orientation);
  }

  /** The straight-line branch does not depend on the interval at all. */
  lemma StraightMoveIgnoresTime(t: Trig, pose: Pose, motion: Motion, time1: real, time2: real)
    requires motion.rotation == 0.0
    ensures CalculatePoseChange(t, pose, motion, time1) == CalculatePoseChange(t, pose, motion, time2)
  {
  }

  /** Standing still leaves a normalised pose exactly where it was. */
  lemma StandingStillKeepsPose(t: Trig, pose: Pose, time: real)
    requires Normalised(t, pose.orientation)
    ensures CalculatePoseChange(t, pose, Motion(Origin, 0.0), time) == pose
  {
    RotationFixesCentre(t, -pose.orientation, Origin);
    assert pose.position.Plus(Origin) == pose.position;
    StraightMoveAddsTranslation(t, pose, Motion(Origin, 0.0), time);
  }

  /** While turning, the new orientation is the old one advanced by rotation
      times time, up to whole turns. */
  lemma ArcAdvancesOrientation(t: Trig, pose: Pose, motion: Motion, time: real) returns (turns: int)
    requires motion.rotation != 0.0
    ensures CalculatePoseChange(t, pose, motion, time).orientation + Turns(t, turns) == Heading(pose, motion, time)
  {
    var finalPosition := RotatePoint(t, pose.position, motion.rotation, ArcCentre(t, pose, motion));
    var finalOrientation := Heading(pose, motion, time);
    var after := CalculatePoseChange(t, pose, motion, time);
    assert after == NewPose(t, finalPosition, finalOrientation);
    turns := NewPoseTurnsBy(t, finalPosition, finalOrientation);
  }

  /** While turning, the robot stays on the circle about the arc centre. */
  lemma ArcKeepsDistanceFromCentre(t: Trig, pose: Pose, motion: Motion, time: real)
    requires motion.rotation != 0.0
    ensures DistanceSquared(CalculatePoseChange(t, pose, motion, time).position, ArcCentre(t, pose, motion))
            == DistanceSquared(pose.position, ArcCentre(t, pose, motion))
  {
  }

  /** While turning, the new position does not depend on the interval: only the
      orientation does. */
  lemma ArcPositionIgnoresTime(t: Trig, pose: Pose, motion: Motion, time1: real, time2: real)
    requires motion.rotation != 0.0
    ensures CalculatePoseChange(t, pose, motion, time1).position == CalculatePoseChange(t, pose, motion, time2).position
  {
  }

  /** How far a robot facing north moves at the robot-frame translation `v`
      while its heading turns clockwise at the rate `w` through an angle with
      sine `s` and cosine `c`. It is the integral of the world velocity
      `(v.x cos(w tau) + v.y sin(w tau), v.y cos(w tau) - v.x sin(w tau))`
      over the interval. */
  function ArcDisplacement(v: Vector2, w: real, s: real, c: real): Vector2
    requires w != 0.0
  {
    Vector2((s * v.x + (1.0 - c) * v.y) / w, (s * v.y - (1.0 - c) * v.x) / w)
  }

  /** Facing north from the origin, the arc of `calculate_pose_change` is the
      mirror image of the turn the robot makes: it is the displacement of a
      robot turning through `motion.rotation`, whatever the time, with the sine
      of that angle negated. */
  lemma ArcFromOrigin(t: Trig, motion: Motion, time: real, s: real, c: real)
    requires motion.rotation != 0.0
    requires s == t.sin(motion.rotation) && c == t.cos(motion.rotation)
    ensures CalculatePoseChange(t, Pose(Origin, 0.0), motion, time).position
            == ArcDisplacement(motion.translation, motion.rotation, -s, c)
  {
    var w, v := motion.rotation, motion.translation;
    RotationAboutOrigin(t, v, -0.0);
    assert Turn(1.0, 0.0, v) == v;
    var arc := ArcCentre(t, Pose(Origin, 0.0), motion);
    assert arc == Vector2(v.y / w, -v.x / w);
    assert Origin.Plus(arc) == arc;
    RotationAboutOffsetCentre(t, Origin, arc, w);
    RotationAboutOrigin(t, arc, w);
    ArcOffsetCommutes(1.0, 0.0, c, -s, w, v, v);
    var d := ArcDisplacement(v, w, -s, c);
    assert Turn(1.0, 0.0, d) == d && Turn(c, - -s, arc) == Turn(c, s, arc);
  }

  /** Driving forwards while turning clockwise, `calculate_pose_change` ends up
      behind the start whenever the sine of the rate is positive, although the
      same translation without turning moves the robot forwards. */
  lemma ArcGoesBackwards(t: Trig, speed: real, rate: real, time: real)
    requires speed > 0.0 && rate > 0.0 && t.sin(rate) > 0.0
    ensures CalculatePoseChange(t, Pose(Origin, 0.0), Motion(Vector2(0.0, speed), rate), time).position.y < 0.0
    ensures CalculatePoseChange(t, Pose(Origin, 0.0), Motion(Vector2(0.0, speed), 0.0), time).position.y == speed
  {
    var s, c := t.sin(rate), t.cos(rate);
    ArcFromOrigin(t, Motion(Vector2(0.0, speed), rate), time, s, c);
    PositiveQuotient(s * speed, rate);
    RotationAboutOrigin(t, Vector2(0.0, speed), -0.0);
  }

  lemma PositiveQuotient(a: real, b: real)
    requires b > 0.0
    ensures a > 0.0 ==> a / b > 0.0
  {
  }

  /** The evidently intended update. The robot turns clockwise, so its position
      is turned by minus `rotation * time` about the arc centre placed relative
      to the robot, and a straight move covers `translation * time`. */
  function CorrectedPoseChange(t: Trig, pose: Pose, motion: Motion, time: real): (r: Pose)
    ensures Normalised(t, r.orientation)
  {
    if motion.rotation != 0.0 then
      var centre := pose.position.Plus(ArcCentre(t, pose, motion));
      var finalPosition := RotatePoint(t, pose.position, -Sweep(motion, time), centre);
      NewPose(t, finalPosition, Heading(pose, motion, time))
    else
      NewPose(t, pose.position.Plus(RotateVector(t, motion.translation.Times(time), -pose.orientation, Origin)),
              pose.orientation)
  }

  /** The corrected arc ends at the start plus the integral of the robot's world
      velocity over the interval: the robot-frame arc displacement, taken into
      the world frame by minus the starting orientation. */
  lemma CorrectedArcDisplacement(t: Trig, pose: Pose, motion: Motion, time: real, sweep: real, s: real, c: real)
    requires motion.rotation != 0.0 && sweep == Sweep(motion, time)
    requires s == t.sin(sweep) && c == t.cos(sweep)
    requires t.sin(-sweep) == -s && t.cos(-sweep) == c
    ensures CorrectedPoseChange(t, pose, motion, time).position
            == pose.position.Plus(RotateVector(t, ArcDisplacement(motion.translation, motion.rotation, s, c),
                                               -pose.orientation, Origin))
  {
    var w, v, p := motion.rotation, motion.translation, pose.position;
    RotationAboutOrigin(t, v, -pose.orientation);
    var u := RotateVector(t, v, -pose.orientation, Origin);
    var arc := ArcCentre(t, pose, motion);
    assert arc == Vector2(u.y / w, -u.x / w);
    CorrectedArcPosition(t, pose, motion, time, sweep, p.Plus(arc));
    RotationAboutOffsetCentre(t, p, arc, -sweep);
    RotationAboutOrigin(t, arc, -sweep);
    RotationAboutOrigin(t, ArcDisplacement(v, w, s, c), -pose.orientation);
    ArcOffsetCommutes(t.cos(-pose.orientation), t.sin(-pose.orientation), c, s, w, v, u);
  }

  /** Turning the translation into the world frame before taking the arc offset
      about the relative centre gives the robot-frame arc displacement turned the
      same way: the two plane rotations commute. `(a, b)` is the cosine and sine
      of the heading rotation, `(c, -s)` those of the turn about the centre. */
  lemma ArcOffsetCommutes(a: real, b: real, c: real, s: real, w: real, v: Vector2, u: Vector2)
    requires w != 0.0 && u == Turn(a, b, v)
    ensures var q := Vector2(u.y / w, -u.x / w);
            q.Minus(Turn(c, -s, q)) == Turn(a, b, ArcDisplacement(v, w, s, c))
  {
    var n1, n2 := s * v.x + (1.0 - c) * v.y, s * v.y - (1.0 - c) * v.x;
    assert ArcDisplacement(v, w, s, c) == Vector2(n1 / w, n2 / w);
    CommutingNumerators(a, b, c, s, v.x, v.y, u.x, u.y, n1, n2);
    OffsetQuotients(a, b, c, s, w, u, n1, n2);
  }

  /** The numerators of `ArcOffsetCommutes`, before dividing by the rate. */
  lemma CommutingNumerators(a: real, b: real, c: real, s: real, vx: real, vy: real,
                            ux: real, uy: real, n1: real, n2: real)
    requires ux == a * vx - b * vy && uy == b * vx + a * vy
    requires n1 == s * vx + (1.0 - c) * vy && n2 == s * vy - (1.0 - c) * vx
    ensures (1.0 - c) * uy + -s * -ux == a * n1 + -b * n2
    ensures s * uy + (1.0 - c) * -ux == b * n1 + a * n2
  {
  }

  /** `ArcOffsetCommutes` after dividing the numerators by the rate. */
  lemma OffsetQuotients(a: real, b: real, c: real, s: real, w: real, u: Vector2, n1: real, n2: real)
    requires w != 0.0
    requires (1.0 - c) * u.y + -s * -u.x == a * n1 + -b * n2
    requires s * u.y + (1.0 - c) * -u.x == b * n1 + a * n2
    ensures var q := Vector2(u.y / w, -u.x / w);
            q.Minus(Turn(c, -s, q)) == Turn(a, b, Vector2(n1 / w, n2 / w))
  {
    var ux, uy := u.x, u.y;
    QuotientCombination(1.0 - c, -s, uy, -ux, w);
    QuotientCombination(a, -b, n1, n2, w);
    QuotientCombination(s, 1.0 - c, uy, -ux, w);
    QuotientCombination(b, a, n1, n2, w);
  }

  /** A combination of quotients by one divisor is the quotient of the combination. */
  lemma QuotientCombination(p: real, q: real, x: real, y: real, w: real)
    requires w != 0.0
    ensures p * (x / w) + q * (y / w) == (p * x + q * y) / w
  {
  }

  /** While turning, the corrected position is the start turned by minus the
      sweep about the relative arc centre. */
  lemma CorrectedArcPosition(t: Trig, pose: Pose, motion: Motion, time: real, sweep: real, centre: Point2)
    requires motion.rotation != 0.0 && sweep == Sweep(motion, time)
    requires centre == pose.position.Plus(ArcCentre(t, pose, motion))
    ensures CorrectedPoseChange(t, pose, motion, time).position == RotatePoint(t, pose.position, -sweep, centre)
  {
  }

  /** Driving forwards while turning clockwise, the corrected update moves the
      robot ahead of its start whenever the sine of the sweep is positive. */
  lemma CorrectedArcGoesForwards(t: Trig, speed: real, rate: real, time: real)
    requires speed > 0.0 && rate > 0.0 && t.sin(rate * time) > 0.0
    requires t.sin(-(rate * time)) == -t.sin(rate * time) && t.cos(-(rate * time)) == t.cos(rate * time)
    ensures CorrectedPoseChange(t, Pose(Origin, 0.0), Motion(Vector2(0.0, speed), rate), time).position.y > 0.0
  {
    var sweep := rate * time;
    var s, c := t.sin(sweep), t.cos(sweep);
    var motion := Motion(Vector2(0.0, speed), rate);
    assert Sweep(motion, time) == sweep;
    CorrectedArcDisplacement(t, Pose(Origin, 0.0), motion, time, sweep, s, c);
    var d := ArcDisplacement(motion.translation, rate, s, c);
    RotationAboutOrigin(t, d, -0.0);
    ForwardShare(s, c, speed, rate, d.y);
  }

  /** The forward share of an arc driven straight ahead has the sign of the
      sweep's sine. */
  lemma ForwardShare(s: real, c: real, speed: real, rate: real, y: real)
    requires speed > 0.0 && rate > 0.0 && s > 0.0
    requires y == (s * speed - (1.0 - c) * 0.0) / rate
    ensures y > 0.0
  {
    PositiveQuotient(s * speed, rate);
  }

  /** The corrected straight move keeps a normalised orientation and covers the
      world-frame translation times the interval, where `calculate_pose_change`
      covers it once. */
  lemma CorrectedStraightMove(t: Trig, pose: Pose, translation: Vector2, time: real)
    requires Normalised(t, pose.orientation)
    ensures CorrectedPoseChange(t, pose, Motion(translation, 0.0), time)
            == Pose(pose.position.Plus(RotateVector(t, translation, -pose.orientation, Origin).Times(time)),
                    pose.orientation)
  {
    RotationIsHomogeneous(t, translation, time, -pose.orientation);
    NewPoseKeepsNormalised(t, pose.position.Plus(RotateVector(t, translation.Times(time), -pose.orientation, Origin)),
                           pose.orientation);
  }
}

=== FILE: scaling.dfy ===
/** The uniform feasibility scaling of inverse kinematics: a scan over the wheels
    in order that lowers a factor, starting from 1, to `limit / |speed|` for every
    limited wheel asked to exceed its limit. */
module Scaling {
  import opened Wrappers
  import opened Angles

  function Min(a: real, b: real): real {
    if a <= b then a else b
  }

  /** A limited wheel asked to turn faster than its limit. */
  predicate Exceeds(speed: real, limit: Option<real>) {
    limit.Some? && Abs(speed) > limit.value
  }

  /** The scan divides each limit by the magnitude of a speed that exceeds it;
      that magnitude is zero only when the limit is negative. */
  predicate ScalingDefined(raw: seq<real>, limits: seq<Option<real>>) {
    && |raw| == |limits|
    && forall i :: 0 <= i < |raw| && Exceeds(raw[i], limits[i]) ==> raw[i] != 0.0
  }

  predicate NonNegativeLimits(limits: seq<Option<real>>) {
    forall i :: 0 <= i < |limits| && limits[i].Some? ==> limits[i].value >= 0.0
  }

  /** No limited wheel is asked to go faster than its limit. */
  predicate NoneExceeds(raw: seq<real>, limits: seq<Option<real>>)
    requires |raw| == |limits|
  {
    forall i :: 0 <= i < |raw| ==> !Exceeds(raw[i], limits[i])
  }

  /** Scaling by `s` brings every wheel that exceeds its limit within it. */
  predicate ScaledWithin(raw: seq<real>, limits: seq<Option<real>>, s: real)
    requires |raw| == |limits|
  {
    forall i :: 0 <= i < |raw| && Exceeds(raw[i], limits[i]) ==> s * Abs(raw[i]) <= limits[i].value
  }

  /** Some wheel that exceeds its limit sits exactly at it once scaled by `s`. */
  predicate SomeBinding(raw: seq<real>, limits: seq<Option<real>>, s: real)
    requires |raw| == |limits|
  {
    exists i :: 0 <= i < |raw| && Exceeds(raw[i], limits[i]) && s * Abs(raw[i]) == limits[i].value
  }

  /** The scan over wheels in order, starting from 1 and lowering the factor to
      `limit / |speed|` for every wheel over its limit. */
  function FeasibleScale(raw: seq<real>, limits: seq<Option<real>>): (s: real)
    requires ScalingDefined(raw, limits)
    decreases |raw|
    ensures s <= 1.0
    ensures s == 1.0 <==> NoneExceeds(raw, limits)
    ensures ScaledWithin(raw, limits, s)
    ensures s < 1.0 ==> SomeBinding(raw, limits, s)
    ensures NonNegativeLimits(limits) ==> s >= 0.0
  {
    if |raw| == 0 then 1.0
    else
      var n := |raw| - 1;
      var prev := FeasibleScale(raw[..n], limits[..n]);
      if Exceeds(raw[n], limits[n]) then
        var wheelScale := limits[n].value / Abs(raw[n]);
        WheelScaleBounds(limits[n].value, Abs(raw[n]), wheelScale);
        LoweringStep(raw, limits, prev, wheelScale);
        Min(prev, wheelScale)
      else
        KeepingStep(raw, limits, prev);
        prev
  }

  lemma WheelScaleBounds(limit: real, magnitude: real, q: real)
    requires magnitude > limit && magnitude != 0.0 && magnitude >= 0.0
    requires q == limit / magnitude
    ensures q * magnitude == limit
    ensures q < 1.0
    ensures limit >= 0.0 ==> q >= 0.0
  {
    QuotientBounds(limit, magnitude, q);
  }

  lemma QuotientBounds(limit: real, magnitude: real, q: real)
    requires magnitude > limit && magnitude > 0.0
    requires q * magnitude == limit
    ensures q < 1.0
    ensures limit >= 0.0 ==> q >= 0.0
  {
    assert (1.0 - q) * magnitude == magnitude - limit;
  }

  /** The contract of the scan over all but the last wheel. */
  predicate PrefixScanned(raw: seq<real>, limits: seq<Option<real>>, prev: real)
    requires |raw| == |limits| && |raw| > 0
  {
    var n := |raw| - 1;
    && prev <= 1.0
    && (prev == 1.0 <==> NoneExceeds(raw[..n], limits[..n]))
    && ScaledWithin(raw[..n], limits[..n], prev)
    && (prev < 1.0 ==> SomeBinding(raw[..n], limits[..n], prev))
    && (NonNegativeLimits(limits[..n]) ==> prev >= 0.0)
  }

  /** The last wheel is within its limit and leaves the factor as it was. */
  lemma KeepingStep(raw: seq<real>, limits: seq<Option<real>>, prev: real)
    requires |raw| == |limits| && |raw| > 0
    requires !Exceeds(raw[|raw| - 1], limits[|raw| - 1])
    requires PrefixScanned(raw, limits, prev)
    ensures prev == 1.0 <==> NoneExceeds(raw, limits)
    ensures ScaledWithin(raw, limits, prev)
    ensures prev < 1.0 ==> SomeBinding(raw, limits, prev)
    ensures NonNegativeLimits(limits) ==> prev >= 0.0
  {
    var n := |raw| - 1;
    KeepingWithin(raw, limits, prev);
    if prev < 1.0 {
      var j :| 0 <= j < n && Exceeds(raw[..n][j], limits[..n][j]) && prev * Abs(raw[..n][j]) == limits[..n][j].value;
      assert raw[..n][j] == raw[j] && limits[..n][j] == limits[j];
      assert Exceeds(raw[j], limits[j]) && prev * Abs(raw[j]) == limits[j].value;
    }
    if NonNegativeLimits(limits) {
      assert forall i :: 0 <= i < n ==> limits[..n][i] == limits[i];
      assert NonNegativeLimits(limits[..n]);
    }
  }

  lemma KeepingWithin(raw: seq<real>, limits: seq<Option<real>>, prev: real)
    requires |raw| == |limits| && |raw| > 0
    requires !Exceeds(raw[|raw| - 1], limits[|raw| - 1])
    requires prev == 1.0 <==> NoneExceeds(raw[..|raw| - 1], limits[..|raw| - 1])
    requires ScaledWithin(raw[..|raw| - 1], limits[..|raw| - 1], prev)
    ensures prev == 1.0 <==> NoneExceeds(raw, limits)
    ensures ScaledWithin(raw, limits, prev)
  {
    var n := |raw| - 1;
    assert forall i :: 0 <= i < n ==> raw[..n][i] == raw[i] && limits[..n][i] == limits[i];
  }

  /** The last wheel exceeds its limit and lowers the factor to its own ratio
      if that is smaller. */
  lemma LoweringStep(raw: seq<real>, limits: seq<Option<real>>, prev: real, wheelScale: real)
    requires |raw| == |limits| && |raw| > 0
    requires Exceeds(raw[|raw| - 1], limits[|raw| - 1])
    requires wheelScale * Abs(raw[|raw| - 1]) == limits[|raw| - 1].value && wheelScale < 1.0
    requires limits[|raw| - 1].value >= 0.0 ==> wheelScale >= 0.0
    requires PrefixScanned(raw, limits, prev)
    ensures Min(prev, wheelScale) < 1.0 && !NoneExceeds(raw, limits)
    ensures ScaledWithin(raw, limits, Min(prev, wheelScale))
    ensures SomeBinding(raw, limits, Min(prev, wheelScale))
    ensures NonNegativeLimits(limits) ==> Min(prev, wheelScale) >= 0.0
  {
    var n := |raw| - 1;
    LoweringKeepsWithin(raw, limits, prev, wheelScale);
    LoweringBinds(raw, limits, prev, wheelScale);
    if NonNegativeLimits(limits) {
      assert forall i :: 0 <= i < n ==> limits[..n][i] == limits[i];
      assert NonNegativeLimits(limits[..n]);
    }
  }

  lemma LoweringKeepsWithin(raw: seq<real>, limits: seq<Option<real>>, prev: real, wheelScale: real)
    requires |raw| == |limits| && |raw| > 0
    requires Exceeds(raw[|raw| - 1], limits[|raw| - 1])
    requires wheelScale * Abs(raw[|raw| - 1]) == limits[|raw| - 1].value
    requires ScaledWithin(raw[..|raw| - 1], limits[..|raw| - 1], prev)
    ensures ScaledWithin(raw, limits, Min(prev, wheelScale))
  {
    forall i | 0 <= i < |raw| && Exceeds(raw[i], limits[i])
      ensures Min(prev, wheelScale) * Abs(raw[i]) <= limits[i].value
    {
      LoweringKeepsWithinAt(raw, limits, prev, wheelScale, i);
    }
  }

  lemma LoweringKeepsWithinAt(raw: seq<real>, limits: seq<Option<real>>, prev: real, wheelScale: real, i: int)
    requires |raw| == |limits| && 0 <= i < |raw|
    requires Exceeds(raw[i], limits[i]) && limits[|raw| - 1].Some?
    requires wheelScale * Abs(raw[|raw| - 1]) == limits[|raw| - 1].value
    requires ScaledWithin(raw[..|raw| - 1], limits[..|raw| - 1], prev)
    ensures Min(prev, wheelScale) * Abs(raw[i]) <= limits[i].value
  {
    var n := |raw| - 1;
    if i < n {
      assert raw[..n][i] == raw[i] && limits[..n][i] == limits[i];
      assert prev * Abs(raw[i]) <= limits[i].value;
      MultiplyByMagnitude(Min(prev, wheelScale), prev, Abs(raw[i]));
    } else {
      MultiplyByMagnitude(Min(prev, wheelScale), wheelScale, Abs(raw[i]));
    }
  }

  lemma LoweringBinds(raw: seq<real>, limits: seq<Option<real>>, prev: real, wheelScale: real)
    requires |raw| == |limits| && |raw| > 0
    requires Exceeds(raw[|raw| - 1], limits[|raw| - 1])
    requires wheelScale * Abs(raw[|raw| - 1]) == limits[|raw| - 1].value && wheelScale < 1.0
    requires prev <= 1.0
    requires prev < 1.0 ==> SomeBinding(raw[..|raw| - 1], limits[..|raw| - 1], prev)
    ensures Min(prev, wheelScale) < 1.0 && !NoneExceeds(raw, limits)
    ensures SomeBinding(raw, limits, Min(prev, wheelScale))
  {
    var n := |raw| - 1;
    var s := Min(prev, wheelScale);
    if s == wheelScale {
      assert Exceeds(raw[n], limits[n]) && s * Abs(raw[n]) == limits[n].value;
    } else {
      var j :| 0 <= j < n && Exceeds(raw[..n][j], limits[..n][j]) && prev * Abs(raw[..n][j]) == limits[..n][j].value;
      assert raw[..n][j] == raw[j] && limits[..n][j] == limits[j];
      assert Exceeds(raw[j], limits[j]) && s * Abs(raw[j]) == limits[j].value;
    }
  }

  lemma MultiplyByMagnitude(s: real, t: real, magnitude: real)
    requires s <= t && magnitude >= 0.0
    ensures s * magnitude <= t * magnitude
  {
    assert t * magnitude - s * magnitude == (t - s) * magnitude;
  }

  /** Every speed scaled by the same factor. */
  function ScaleAll(raw: seq<real>, s: real): (scaled: seq<real>)
    ensures |scaled| == |raw|
  {
    seq(|raw|, i requires 0 <= i < |raw| => raw[i] * s)
  }

  lemma ScaleAllPointwise(scaled: seq<real>, raw: seq<real>, s: real)
    requires |scaled| == |raw|
    requires forall i :: 0 <= i < |raw| ==> scaled[i] == raw[i] * s
    ensures scaled == ScaleAll(raw, s)
  {
    var expected := ScaleAll(raw, s);
    assert forall i :: 0 <= i < |raw| ==> expected[i] == raw[i] * s;
  }

  /** No limited wheel turns faster than its limit. */
  predicate WithinLimits(speeds: seq<real>, limits: seq<Option<real>>)
    requires |speeds| == |limits|
  {
    forall i :: 0 <= i < |speeds| && limits[i].Some? ==> Abs(speeds[i]) <= limits[i].value
  }

  /** Some limited wheel turns exactly at its limit. */
  predicate SomeAtLimit(speeds: seq<real>, limits: seq<Option<real>>)
    requires |speeds| == |limits|
  {
    exists i :: 0 <= i < |speeds| && limits[i].Some? && Abs(speeds[i]) == limits[i].value
  }

  /** With non-negative limits the scaled speeds respect every limit, and a
      factor below one leaves some wheel exactly at its limit. */
  lemma ScaledSpeedsRespectLimits(raw: seq<real>, limits: seq<Option<real>>)
    requires ScalingDefined(raw, limits)
    ensures NonNegativeLimits(limits) ==> WithinLimits(ScaleAll(raw, FeasibleScale(raw, limits)), limits)
    ensures NonNegativeLimits(limits) && FeasibleScale(raw, limits) < 1.0
            ==> SomeAtLimit(ScaleAll(raw, FeasibleScale(raw, limits)), limits)
  {
    if NonNegativeLimits(limits) {
      var s := FeasibleScale(raw, limits);
      ScaledWithinLimits(raw, limits, s);
      if s < 1.0 {
        ScaledAtLimit(raw, limits, s);
      }
    }
  }

  lemma ScaledWithinLimits(raw: seq<real>, limits: seq<Option<real>>, s: real)
    requires |raw| == |limits| && NonNegativeLimits(limits)
    requires 0.0 <= s <= 1.0 && ScaledWithin(raw, limits, s)
    ensures WithinLimits(ScaleAll(raw, s), limits)
  {
    var scaled := ScaleAll(raw, s);
    forall i | 0 <= i < |raw| && limits[i].Some?
      ensures Abs(scaled[i]) <= limits[i].value
    {
      ScaledSpeedWithin(raw[i], limits[i].value, s, Exceeds(raw[i], limits[i]));
    }
  }

  lemma ScaledAtLimit(raw: seq<real>, limits: seq<Option<real>>, s: real)
    requires |raw| == |limits| && 0.0 <= s && SomeBinding(raw, limits, s)
    ensures SomeAtLimit(ScaleAll(raw, s), limits)
  {
    var j :| 0 <= j < |raw| && Exceeds(raw[j], limits[j]) && s * Abs(raw[j]) == limits[j].value;
    AbsOfScaled(raw[j], s);
    assert Abs(ScaleAll(raw, s)[j]) == limits[j].value;
  }

  lemma AbsOfScaled(x: real, s: real)
    requires s >= 0.0
    ensures Abs(x * s) == s * Abs(x)
  {
  }

  /** One wheel's scaled speed: over the limit the factor brings it down to the
      limit or below; within it, a factor in [0, 1] keeps it within. */
  lemma ScaledSpeedWithin(x: real, limit: real, s: real, exceeds: bool)
    requires 0.0 <= s <= 1.0 && limit >= 0.0
    requires exceeds <==> Abs(x) > limit
    requires exceeds ==> s * Abs(x) <= limit
    ensures Abs(x * s) <= limit
  {
    AbsOfScaled(x, s);
    if !exceeds {
      assert Abs(x) - s * Abs(x) == (1.0 - s) * Abs(x);
    }
  }

  /** Per-wheel speeds, in wheel order, and the factor that scaled them. */
  datatype WheelSpeeds = WheelSpeeds(speeds: seq<real>, scaling: real)

  /** The requested speeds, all scaled by the factor the scan finds. */
  function ScaleRequest(raw: seq<real>, limits: seq<Option<real>>): (r: WheelSpeeds)
    requires ScalingDefined(raw, limits)
    ensures |r.speeds| == |raw|
    ensures r.speeds == ScaleAll(raw, r.scaling)
    ensures r.scaling <= 1.0
    ensures r.scaling == 1.0 <==> NoneExceeds(raw, limits)
    ensures NonNegativeLimits(limits) ==> 0.0 <= r.scaling
    ensures NonNegativeLimits(limits) ==> WithinLimits(r.speeds, limits)
    ensures NonNegativeLimits(limits) && r.scaling < 1.0 ==> SomeAtLimit(r.speeds, limits)
    ensures r.scaling < 1.0 ==> SomeBinding(raw, limits, r.scaling)
  {
    var scale := FeasibleScale(raw, limits);
    ScaledSpeedsRespectLimits(raw, limits);
    WheelSpeeds(ScaleAll(raw, scale), scale)
  }

  /** A wheel whose limit is zero, asked to turn at all, forces the factor and
      every scaled speed to zero. */
  lemma ZeroLimitStopsAll(raw: seq<real>, limits: seq<Option<real>>, i: int)
    requires ScalingDefined(raw, limits) && NonNegativeLimits(limits)
    requires 0 <= i < |raw| && limits[i] == Some(0.0) && raw[i] != 0.0
    ensures ScaleRequest(raw, limits).scaling == 0.0
    ensures forall j :: 0 <= j < |raw| ==> ScaleRequest(raw, limits).speeds[j] == 0.0
  {
    var r := ScaleRequest(raw, limits);
    assert Abs(r.speeds[i]) <= 0.0;
    ZeroProduct(raw[i], r.scaling);
  }

  /** A probe magnitude times the scaling the probe request needed. */
  function ScaledProbe(probe: real, scaling: real): (v: real)
    requires probe >= 0.0
    ensures scaling <= 1.0 ==> v <= probe
    ensures scaling >= 0.0 ==> v >= 0.0
  {
    assert probe - probe * scaling == probe * (1.0 - scaling);
    probe * scaling
  }

  /** Uniformly scaled requests: when the request `unit * probe` is scaled by
      `s`, every request `unit * v` with `0 <= v <= probe * s` is feasible as it
      stands. */
  lemma UniformRequestAchievable(unit: seq<real>, limits: seq<Option<real>>, probe: real, atProbe: WheelSpeeds, v: real)
    requires |unit| == |limits| && NonNegativeLimits(limits)
    requires atProbe == ScaleRequest(ScaleAll(unit, probe), limits)
    requires probe > 0.0 && 0.0 <= v <= ScaledProbe(probe, atProbe.scaling)
    ensures ScaleRequest(ScaleAll(unit, v), limits).scaling == 1.0
  {
    var s := atProbe.scaling;
    assert v <= probe * s;
    assert 0.0 <= s && WithinLimits(atProbe.speeds, limits);
    WithinBelowProbe(unit, limits, probe, ScaleAll(unit, probe), s, atProbe.speeds, v, ScaleAll(unit, v));
  }

  /** Every wheel of `unit * v` is within its limit when `unit * probe` scaled
      by `s >= v / probe` was. */
  lemma WithinBelowProbe(unit: seq<real>, limits: seq<Option<real>>, probe: real, raw: seq<real>, s: real,
                         scaled: seq<real>, v: real, atV: seq<real>)
    requires |unit| == |limits|
    requires raw == ScaleAll(unit, probe) && scaled == ScaleAll(raw, s) && atV == ScaleAll(unit, v)
    requires WithinLimits(scaled, limits)
    requires probe > 0.0 && 0.0 <= s && 0.0 <= v <= probe * s
    ensures NoneExceeds(atV, limits)
  {
    forall i | 0 <= i < |unit|
      ensures !Exceeds(atV[i], limits[i])
    {
      AchievableAt(unit[i], raw[i], scaled[i], atV[i], probe, v, s, limits[i]);
    }
  }

  /** One wheel: its speed at the probe, scaled by `s`, was within its limit. */
  lemma AchievableAt(x: real, atProbe: real, scaled: real, atV: real, probe: real, v: real, s: real, limit: Option<real>)
    requires atProbe == x * probe && scaled == atProbe * s && atV == x * v
    requires limit.Some? ==> Abs(scaled) <= limit.value
    requires probe > 0.0 && 0.0 <= s && 0.0 <= v <= probe * s
    ensures !Exceeds(atV, limit)
  {
    if limit.Some? {
      assert Abs(scaled) == (probe * s) * Abs(x);
      assert Abs(atV) == v * Abs(x);
      assert (probe * s) * Abs(x) - v * Abs(x) == (probe * s - v) * Abs(x);
    }
  }

  /** ... and once `unit * probe` had to be scaled, every request `unit * v` with
      `v > probe * s` has to be scaled too. */
  lemma UniformRequestTight(unit: seq<real>, limits: seq<Option<real>>, probe: real, atProbe: WheelSpeeds, v: real)
    requires |unit| == |limits| && NonNegativeLimits(limits)
    requires atProbe == ScaleRequest(ScaleAll(unit, probe), limits)
    requires probe > 0.0 && atProbe.scaling < 1.0 && v > ScaledProbe(probe, atProbe.scaling)
    ensures ScaleRequest(ScaleAll(unit, v), limits).scaling < 1.0
  {
    var s := atProbe.scaling;
    assert 0.0 <= s && SomeBinding(ScaleAll(unit, probe), limits, s);
    var j := TightIndex(unit, limits, probe, v, s);
    assert !NoneExceeds(ScaleAll(unit, v), limits);
  }

  /** The wheel that bound the probe request exceeds its limit at `unit * v`. */
  lemma TightIndex(unit: seq<real>, limits: seq<Option<real>>, probe: real, v: real, s: real) returns (j: int)
    requires |unit| == |limits| && NonNegativeLimits(limits)
    requires probe > 0.0 && 0.0 <= s && v > probe * s
    requires SomeBinding(ScaleAll(unit, probe), limits, s)
    ensures 0 <= j < |unit| && Exceeds(ScaleAll(unit, v)[j], limits[j])
  {
    var raw := ScaleAll(unit, probe);
    j :| 0 <= j < |raw| && Exceeds(raw[j], limits[j]) && s * Abs(raw[j]) == limits[j].value;
    var x, limit := unit[j], limits[j].value;
    assert raw[j] == x * probe;
    TightAt(x, probe, v, s, limit);
    assert ScaleAll(unit, v)[j] == x * v;
  }

  lemma TightAt(x: real, probe: real, v: real, s: real, limit: real)
    requires probe > 0.0 && 0.0 <= s && v > probe * s && limit >= 0.0
    requires Abs(x * probe) > limit && s * Abs(x * probe) == limit
    ensures Abs(x * v) > limit
  {
    assert Abs(x * probe) == probe * Abs(x);
    assert Abs(x) > 0.0;
    assert Abs(x * v) == v * Abs(x);
    assert v * Abs(x) - (probe * s) * Abs(x) == (v - probe * s) * Abs(x);
  }
}

=== FILE: wheel.dfy ===
/** One omni-wheel of a holonomic chassis: its mounting point, its drive vector
    (the contact point's displacement over one revolution), an optional speed
    limit in revolutions per second, and the coefficients cached at construction. */
module Wheel {
  import opened Wrappers
  import opened Geometry

  datatype WheelData = WheelData(
    position: Point2,
    maxSpeed: Option<real>,
    vector: Vector2,
    vectorMagnitudeSquared: real,
    coX: real,
    coY: real,
    coTheta: real)

  /** What construction establishes: the cached squared magnitude is that of the
      drive vector and non-zero, and the three coefficients are the drive vector's
      components and its moment about the chassis centre, each divided by it. */
  predicate CoefficientsCached(w: WheelData) {
    && w.vectorMagnitudeSquared == w.vector.MagnitudeSquared()
    && w.vectorMagnitudeSquared != 0.0
    && w.coX == w.vector.x / w.vectorMagnitudeSquared
    && w.coY == w.vector.y / w.vectorMagnitudeSquared
    && w.coTheta == (w.vector.x * w.position.y - w.vector.y * w.position.x) / w.vectorMagnitudeSquared
  }

  type OmniWheel = w: WheelData | CoefficientsCached(w)
    witness WheelData(Origin, None, Vector2(1.0, 0.0), 1.0, 1.0, 0.0, 0.0)

  datatype WheelError =
    | AmbiguousSpecification  // both or neither of (angle, radius) and vector given
    | ZeroDriveVector         // the drive vector has zero length; the coefficients divide by it

  /** The speed limit a wheel gets when none is given: zero, not unlimited. */
  const DefaultMaxSpeed: Option<real> := Some(0.0)

  /** The drive vector of a wheel of the given radius pointing `angle` radians
      clockwise from the +Y axis: one circumference along that direction. */
  function DriveVectorFromAngle(t: Trig, angle: real, radius: real): Vector2 {
    var circumference := 2.0 * t.pi * radius;
    Vector2(t.sin(angle) * circumference, t.cos(angle) * circumference)
  }

  /** Builds a wheel from exactly one of a drive vector or an (angle, radius)
      pair. Omitted arguments take the constructor's defaults. */
  function NewOmniWheel(t: Trig, position: Point2, maxSpeed: Option<real> := DefaultMaxSpeed,
                        angle: Option<real> := None, radius: Option<real> := None,
                        vector: Option<Vector2> := None)
    : (r: Result<OmniWheel, WheelError>)
    ensures r == Failure(AmbiguousSpecification)
            <==> !((angle.None? && radius.None? && vector.Some?) || (angle.Some? && radius.Some? && vector.None?))
    ensures angle.None? && radius.None? && vector.Some? ==>
              if vector.value.MagnitudeSquared() == 0.0 then r == Failure(ZeroDriveVector)
              else r.Success? && r.value.vector == vector.value
    ensures angle.Some? && radius.Some? && vector.None? ==>
              var v := DriveVectorFromAngle(t, angle.value, radius.value);
              if v.MagnitudeSquared() == 0.0 then r == Failure(ZeroDriveVector)
              else r.Success? && r.value.vector == v
    ensures r.Success? ==> r.value.position == position && r.value.maxSpeed == maxSpeed
  {
    var resolved :=
      if angle.None? && radius.None? && vector.Some? then Some(vector.value)
      else if angle.Some? && radius.Some? && vector.None? then Some(DriveVectorFromAngle(t, angle.value, radius.value))
      else None;
    match resolved
    case None => Failure(AmbiguousSpecification)
    case Some(v) =>
      var m := v.MagnitudeSquared();
      if m == 0.0 then Failure(ZeroDriveVector)
      else Success(WheelData(position, maxSpeed, v, m, v.x / m, v.y / m, (v.x * position.y - v.y * position.x) / m))
  }

  /** Revolutions per second that carry the contact point at `velocity`: the
      velocity's component along the drive vector, divided by the drive vector's
      length twice (once to project, once to turn distance into revolutions). That
      is the cached coefficients applied to the velocity. */
  function Speed(w: OmniWheel, velocity: Vector2): (r: real)
    ensures r == w.coX * velocity.x + w.coY * velocity.y
  {
    ProjectionByCoefficients(velocity.x, velocity.y, w.vector.x, w.vector.y, w.vectorMagnitudeSquared);
    velocity.Dot(w.vector) / w.vectorMagnitudeSquared
  }

  /** Projecting onto a vector and dividing by its squared length is applying the
      vector's components, each divided by that length, as coefficients. */
  lemma ProjectionByCoefficients(vx: real, vy: real, ux: real, uy: real, m: real)
    requires m != 0.0
    ensures (vx * ux + vy * uy) / m == (ux / m) * vx + (uy / m) * vy
  {
    DivideSum(vx * ux, vy * uy, m);
    DivideScaled(vx, ux, m);
    DivideScaled(vy, uy, m);
  }

  lemma DivideSum(u: real, v: real, m: real)
    requires m != 0.0
    ensures (u + v) / m == u / m + v / m
  {
  }

  lemma DivideScaled(k: real, u: real, m: real)
    requires m != 0.0
    ensures k * u / m == k * (u / m)
    ensures u * k / m == (u / m) * k
  {
  }

  /** The wheel speed is linear in the velocity at the contact point. */
  lemma SpeedIsLinear(w: OmniWheel, u: Vector2, v: Vector2, a: real, b: real)
    ensures Speed(w, u.Times(a).Plus(v.Times(b))) == a * Speed(w, u) + b * Speed(w, v)
  {
    assert w.coX * (u.x * a + v.x * b) == a * (w.coX * u.x) + b * (w.coX * v.x);
    assert w.coY * (u.y * a + v.y * b) == a * (w.coY * u.y) + b * (w.coY * v.y);
  }

  /** The homogeneous case of `SpeedIsLinear`. */
  lemma SpeedIsHomogeneous(w: OmniWheel, v: Vector2, k: real)
    ensures Speed(w, v.Times(k)) == k * Speed(w, v)
  {
    SpeedIsLinear(w, v, v, k, 0.0);
    assert v.Times(k).Plus(v.Times(0.0)) == v.Times(k);
  }

  /** Moving the contact point by the drive vector in one second is one
      revolution per second. */
  lemma SpeedOfDriveVector(w: OmniWheel)
    ensures Speed(w, w.vector) == 1.0
  {
    assert w.vector.Dot(w.vector) == w.vectorMagnitudeSquared;
  }

  /** A velocity along the drive vector, `k` drive vectors per second, needs `k`
      revolutions per second. */
  lemma SpeedAlongDriveVector(w: OmniWheel, k: real)
    ensures Speed(w, w.vector.Times(k)) == k
  {
    var m := w.vectorMagnitudeSquared;
    assert w.vector.Times(k).Dot(w.vector) == k * m;
    DivideScaled(k, m, m);
  }

  /** The wheel is idle exactly when the velocity is perpendicular to its drive vector. */
  lemma SpeedZeroIffPerpendicular(w: OmniWheel, velocity: Vector2)
    ensures Speed(w, velocity) == 0.0 <==> velocity.Dot(w.vector) == 0.0
  {
    var m := w.vectorMagnitudeSquared;
    ZeroQuotient(velocity.Dot(w.vector), m);
  }

  lemma ZeroQuotient(u: real, m: real)
    requires m != 0.0
    ensures u / m == 0.0 <==> u == 0.0
  {
    if u / m == 0.0 {
      assert u == (u / m) * m;
    }
  }

  /** A wheel built from a non-zero drive vector keeps it verbatim and turns
      once per second when its contact point moves by it in a second. */
  lemma NewOmniWheelFromVector(t: Trig, position: Point2, maxSpeed: Option<real>, v: Vector2)
    requires v.MagnitudeSquared() != 0.0
    ensures var r := NewOmniWheel(t, position, maxSpeed, None, None, Some(v));
            r.Success? && r.value.vector == v && Speed(r.value, v) == 1.0
  {
    SpeedOfDriveVector(NewOmniWheel(t, position, maxSpeed, None, None, Some(v)).value);
  }

  /** A wheel built from a drive vector alone gets the speed limit zero. */
  lemma NewOmniWheelDefaultLimit(t: Trig, position: Point2, v: Vector2)
    requires v.MagnitudeSquared() != 0.0
    ensures var r := NewOmniWheel(t, position, vector := Some(v));
            r.Success? && r.value.maxSpeed == Some(0.0)
  {
  }
}

=== FILE: wrappers.dfy ===
/** Failure-compatible wrappers used across the chassis model. */
module Wrappers {

  /** An optional value; used for the wheel speed limit and for the optional
      constructor arguments of a wheel. */
  datatype Option<+T> = None | Some(value: T)

  /** The outcome of an operation that can fail: what the `OmniWheel` constructor
      raises, and what the numpy solver raises inside `calculate_motion`, become
      `Failure`. */
  datatype Result<+T, +E> = Success(value: T) | Failure(error: E)
}
